=== FILE: README.md ===
# arcdb static-site generator, modelled in Dafny

arcdb builds a static site about the items of ARC Raiders from one catalog,
`public/data.json`: an array of records, each an object of string fields such
as `Name` and `Rarity`. Two build scripts read that catalog.

- `scripts/generate-item-pages.js` renders one HTML page per record to
  `public/items/{slug}/index.html`. Each page carries the escaped title,
  description and keywords, a canonical link, Open Graph tags, a JSON-LD
  `Product` object and a table with one row per field.
- `scripts/generate-sitemap.js` writes `public/sitemap.xml`. That document is a
  sitemaps.org 0.9 `urlset` holding four main pages, then one `<url>` per
  record at `https://www.arcdb.site/items/{slug}/`.

Both scripts derive the slug with the same `slugify`. They fall back to the
name `item` when a record has no `Name`. They set exit code 1 when the catalog
cannot be read.

The model is functional. The `public/` directory is a `map<string, string>`
from relative path to contents. A run of a script is a function from that map
to the new map and the exit code. The loop of the page script is a fold of
writes into the map, in which a later write to the same path wins. The
model also proves several things about the pieces:

- what `slugify` and `escapeHtml` produce;
- that each rendered page carries its tags;
- that the attribute table and the sitemap read back as what they were built from;
- that the two scripts agree on every address.

Modules, one per file:

| file | module | what it holds |
|---|---|---|
| strings.dfy | `Wrappers`, `Strings` | `Option`, prefix/suffix/substring predicates, `Join`, `Concat`, a cell reader |
| slug.dfy | `Slug` | `slugify` as its three regular-expression steps, and a word-based reference definition |
| html.dfy | `Html` | `escapeHtml` as five ordered replacements, a per-character reference, and the decoder of the five entities |
| catalog.dfy | `Catalog` | records, property lookup, `item.Name \|\| 'item'`, the shared slug |
| site.dfy | `Site` | the file map, the read of `data.json`, the outcome of a run |
| writes.dfy | `Writes` | writing a sequence of files, last write wins |
| item_pages.dfy | `ItemPages` | one page: title, description, URL, output path, JSON-LD, table, template |
| item_pages_main.dfy | `ItemPagesMain` | the loop of the page script as a fold |
| item_pages_script.dfy | `ItemPagesScript` | `main` of the page script |
| sitemap.dfy | `Sitemap` | the sitemap document, the loop that builds it, a reader for it, `main` |
| agreement.dfy | `Agreement` | how the two scripts fit together |

## Model

| member | source | states |
|---|---|---|
| Slug.Lower | scripts/generate-item-pages.js:5 | no capital is left after lowercasing, lowering again changes nothing, every character other than `A`–`Z` is kept, and a character is a letter or digit afterwards exactly when it was one or was a capital |
| Slug.Slugify | scripts/generate-item-pages.js:4-8 | the three regular-expression steps give a slug (only `[a-z0-9-]`, no `-` at either end, no `--`) equal to an independent definition: the maximal runs of `[a-z0-9]` in the lowercased name, joined with `-`; the sitemap's copy at scripts/generate-sitemap.js:4-8 is the same function |
| Slug.SlugifyFixpointIff | scripts/generate-item-pages.js:6-7 | `slugify` returns its input unchanged exactly when the input is already a slug |
| Slug.SlugifyIdempotent | scripts/generate-item-pages.js:4-8 | slugifying a slug again changes nothing |
| Slug.SlugEmptyIff | scripts/generate-item-pages.js:6-7 | the slug is empty exactly when no character of the name lowercases to a letter or digit |
| Slug.SlugifyPulseRifle | scripts/generate-item-pages.js:4-8 | `Pulse Rifle Mk.II` gives `pulse-rifle-mk-ii` |
| Slug.SlugifyScrapMetal | scripts/generate-item-pages.js:4-8 | `Scrap Metal` gives `scrap-metal` |
| Slug.SlugifySmallExamples | scripts/generate-item-pages.js:6-7 | an all-symbol name and the empty name give the empty slug; `item` gives `item` |
| Html.EscapeHtml | scripts/generate-item-pages.js:14-21 | the five ordered replacements, `&` first, equal escaping each character on its own |
| Html.OrderedReplacementsArePerChar | scripts/generate-item-pages.js:16-20 | doing the five passes in this order over any string gives the same text as escaping each character independently |
| Html.EscapeHtmlNoMarkup | scripts/generate-item-pages.js:17-20 | escaped text holds no raw `<`, `>`, `"` or `'` |
| Html.EscapeHtmlEntities | scripts/generate-item-pages.js:16-20 | every `&` in escaped text begins `&amp;`, `&lt;`, `&gt;`, `&quot;` or `&#39;` |
| Html.EscapeHtmlRoundTrip | scripts/generate-item-pages.js:14-21 | decoding the five entities recovers the input |
| Html.EscapeHtmlInjective | scripts/generate-item-pages.js:14-21 | two different strings never escape to the same text |
| Html.EscapeHtmlIdentityIff | scripts/generate-item-pages.js:14-21 | escaping changes nothing exactly when the input has none of the five special characters |
| Catalog.Lookup | scripts/generate-item-pages.js:42 | the lookup is absent exactly when no field has the key; a present result is the value of a field with that key |
| Catalog.LookupOwnKey | scripts/generate-item-pages.js:62 | since a record's keys are distinct, looking up a field's own key finds that field's value |
| Catalog.Entries | scripts/generate-item-pages.js:59-63 | pairing each key of `Object.keys(item)` with the value `item[k]` finds for it gives back the record itself, field by field |
| Catalog.ResolveName | scripts/generate-item-pages.js:42 | the name is never empty; a non-empty `Name` is used as it is; a missing or empty `Name` gives `item` |
| Catalog.NamelessItemSlug | scripts/generate-sitemap.js:55-56 | a record without a usable `Name` gets the slug `item` |
| Site.ReadCatalogSeesOnlyDataFile | scripts/generate-item-pages.js:27-29 | the read depends on `data.json` alone: two file maps that agree on it give the same catalog or the same failure |
| Site.ReadCatalogAfterWrite | scripts/generate-sitemap.js:15-17 | writing any other file, such as `sitemap.xml`, leaves the next read unchanged |
| Site.ReadCatalogAfterMerge | scripts/generate-item-pages.js:27-29 | adding files that leave `data.json` out, such as the pages, leaves the next read unchanged |
| Writes.FoldKeys | scripts/generate-item-pages.js:109-110 | after a sequence of writes, a path exists exactly when some write targeted it |
| Writes.FoldLastWriter | scripts/generate-item-pages.js:109-110 | a file holds the contents of the last write to its path |
| Writes.FoldCount | scripts/generate-item-pages.js:41-111 | there are at most as many files as writes, and exactly as many when the paths are distinct |
| Writes.WriteAll | scripts/generate-item-pages.js:41-111 | the loop of writes leaves the old files overlaid with the folded writes |
| Writes.WritesOf | scripts/generate-item-pages.js:41-111 | one write per record, in catalog order, to the record's path with the record's rendering |
| ItemPages.Position | scripts/generate-item-pages.js:66-107 | every interpolated tag has a slot in the template |
| ItemPages.TemplateContents | scripts/generate-item-pages.js:66-107 | the rendered document contains every filled tag of the template |
| ItemPages.PageHtml | scripts/generate-item-pages.js:66-107 | an item's page contains the escaped title, description and keywords (lines 71-73), the canonical link and `og:url` at the item's address (74, 78), the Open Graph title and description, the JSON-LD script, the breadcrumb, the `<h1>`, the paragraph, and the table of the record's fields (91-99) |
| ItemPages.PageUrlShape | scripts/generate-item-pages.js:74 | with `siteBase` `/` the canonical address is `https://www.arcdb.site/items/{slug}/`, and the slug needs no escaping there because escaping leaves it unchanged |
| ItemPages.TableRoundTrip | scripts/generate-item-pages.js:97 | reading the rows back decodes each cell and yields exactly the record's fields in order: one row per field |
| ItemPages.BuildJsonLd | scripts/generate-item-pages.js:49-64 | `identifier` is the slug, and `additionalProperty`, built by looking up `item[k]` for each key, has one entry per field with the field's own key and value, in field order |
| ItemPages.JsonLdMatchesTable | scripts/generate-item-pages.js:59-63 | the table (line 97) reads back as the record, and the JSON-LD `additionalProperty` list has one entry per row read back, with the same key and value in the same order |
| ItemPages.OutputPath | scripts/generate-item-pages.js:44 | every page path lies under `items/`, ends in `/index.html` and is never `data.json`; for a non-empty slug the directory between them is the slug itself |
| ItemPagesMain.OutputPathInjective | scripts/generate-item-pages.js:44 | two slugs share an output file exactly when they are equal |
| ItemPagesMain.NamelessItemPath | scripts/generate-item-pages.js:42-45 | a record with a missing or empty `Name` is written to `items/item/index.html` |
| ItemPagesMain.DistinctPathsIffSlugs | scripts/generate-item-pages.js:43-44 | records have distinct output files exactly when they have distinct slugs |
| ItemPagesMain.PagesKeys | scripts/generate-item-pages.js:41-111 | the files written are exactly the records' page paths |
| ItemPagesMain.PagesLastWriter | scripts/generate-item-pages.js:109-110 | a record that no later record shares a slug with owns its page file; an earlier record with that slug is overwritten |
| ItemPagesMain.PagesCount | scripts/generate-item-pages.js:41-111 | at most one page per record, and exactly one per record when the slugs are distinct |
| ItemPagesMain.NoPageIsDataFile | scripts/generate-item-pages.js:109 | no record's page path is `data.json` |
| ItemPagesScript.GenerateItemPages | scripts/generate-item-pages.js:41-111 | the loop leaves the old files overlaid with the pages |
| ItemPagesScript.RunItemPages | scripts/generate-item-pages.js:23-114 | exit code 1 exactly when the catalog cannot be read, and then nothing is written; otherwise exit code 0, the files are the old ones plus the page paths, other files and `data.json` are kept |
| ItemPagesScript.RunItemPagesContents | scripts/generate-item-pages.js:109-110 | after a successful run every page path holds what the loop last wrote to it |
| ItemPagesScript.RunItemPagesWritesPage | scripts/generate-item-pages.js:41-111 | after a successful run the file of a record that no later record shares a slug with holds that record's page |
| ItemPagesScript.RunItemPagesIdempotent | scripts/generate-item-pages.js:23-114 | running the script a second time changes neither the files nor the exit code |
| Sitemap.AppendAll | scripts/generate-sitemap.js:54-63 | the `sitemap +=` loop appends the parts in order |
| Sitemap.BuildSitemap | scripts/generate-sitemap.js:26-66 | the string building of `main` produces the sitemap document of the catalog |
| Sitemap.ParseUrlsetXml | scripts/generate-sitemap.js:27-66 | any `urlset` whose fields hold no `<` reads back as itself |
| Sitemap.ItemEntryPlain | scripts/generate-sitemap.js:57-62 | an item entry's address, priority and change frequency hold no `<`, so the entry is well delimited |
| Sitemap.SitemapXml | scripts/generate-sitemap.js:26-66 | the document opens with the XML declaration and the `urlset` tag, ends with `</urlset>` and a newline also for an empty catalog, and reads back as the four main pages (`/` at `1.00`; the three guides at `0.80`; all weekly) followed by one entry per record in catalog order |
| Sitemap.SitemapEntryCount | scripts/generate-sitemap.js:54-63 | for N records there are 4 + N entries; entry `i` is `https://www.arcdb.site/items/{slug}/` at priority `0.60`, monthly |
| Sitemap.RunSitemap | scripts/generate-sitemap.js:10-73 | exit code 1 exactly when the catalog cannot be read, and then nothing is written; otherwise exit code 0, `sitemap.xml` is added or replaced with a document that reads back as the main pages and the records' entries, and every other file is kept |
| Sitemap.RunSitemapIdempotent | scripts/generate-sitemap.js:10-73 | running the script a second time changes neither the files nor the exit code |
| Agreement.ItemLocIsPageUrl | scripts/generate-sitemap.js:58 | a record's sitemap address is the canonical address its page declares |
| Agreement.SitemapEntryHasPage | scripts/generate-sitemap.js:55-58 | for every record the sitemap lists, a page file exists at its path, and its canonical link is the listed address, even when a later record overwrote it |
| Agreement.SitemapCoversPages | scripts/generate-item-pages.js:41-45 | every page file on disk belongs to a listed record and carries that record's listed address |
| Agreement.SitemapAndPagesCount | scripts/generate-sitemap.js:54-63 | the sitemap lists one item entry per record; the page script writes as many files exactly when the slugs are distinct, and fewer otherwise |
| Agreement.SameLocSamePage | scripts/generate-item-pages.js:43-44 | two records are listed at the same address exactly when they share a page file |
| Agreement.EmptySlugExample | scripts/generate-item-pages.js:44 | a name without letters or digits writes `items/index.html`, while its canonical link and sitemap address end in `/items//` |
| Agreement.ScrapMetalExample | scripts/generate-item-pages.js:93-97 | for `{"Name": "Scrap Metal", "Rarity": "Common"}` the page holds the heading `Scrap Metal - ARC Raiders Item` and the row `<th>Rarity</th><td>Common</td>`, and its table reads back as the two fields in order; the record is written to `items/scrap-metal/index.html` and listed as `https://www.arcdb.site/items/scrap-metal/` |
| Agreement.ScrapMetalAddresses | scripts/generate-sitemap.js:58 | the same record is written to `items/scrap-metal/index.html` and listed as `https://www.arcdb.site/items/scrap-metal/` |
| Agreement.SitemapIsNoPage | scripts/generate-sitemap.js:69 | `sitemap.xml` is never a page path, so the two scripts write disjoint files |
| Agreement.PassesCommute | scripts/generate-sitemap.js:10-73 | running the page script and then the sitemap script leaves the same files as the other order, and both scripts report the same exit code |

## Left out

- Reading and writing files is a map from path to contents. `fs.readFile`, `fs.writeFile`, `path.resolve(process.cwd(), 'public')` and `path.join` are modelled only as paths relative to `public/`.
- `ensureDir` and `fs.mkdir` (scripts/generate-item-pages.js:10-12, 37, 45) are left out, because directories are implicit in a path-keyed map.
- A failing write and the `main().catch` handler that sets exit code 1 (line 116 and line 75) are not modelled. The map write cannot fail.
- `console.log` and `console.error` messages, including the generated counts, are not modelled.
- `JSON.parse` of `data.json` is a parameter, `parse: string -> Option<Catalog>`. Its `None` stands for any throw inside the `try` block. A catalog that parses to an object, a number, a boolean or `null` throws at the `for … of` loop over the records (scripts/generate-item-pages.js:41, scripts/generate-sitemap.js:54) and exits 1 with nothing written, as the `None` case does. A top-level JSON string is the exception: the loop runs over its characters. The model still takes it as a parse failure, where the scripts behave otherwise. For `"ab"` each character becomes a nameless record. The page script then writes `items/item/index.html` twice, the second time with the one row `0` to `b`, and exits 0. The sitemap script lists `/items/item/` twice and exits 0. For `""` both scripts exit 0: the page script writes no page, and the sitemap script writes a sitemap with no item entries. A catalog whose records are not objects is also taken as a parse failure, where the scripts behave otherwise: for `[1]` the page script writes `items/item/index.html` and exits 0, and for `[{"Name":"A"}, null]` it writes A's page, then throws at line 42 and exits 1 through line 116.
- `JSON.stringify` of the JSON-LD object is a parameter, `stringify: JsonLd -> string`. Its output goes into the `<script>` block unescaped, exactly as the script does. So a value containing `</script>` is not neutralised; the model states no property about that block's text.
- Field values are strings. `String(str)` in `escapeHtml` and `name.toString()` in `slugify` are the identity on strings. The only falsy string is `""`, which is why a missing or empty `Name` falls back to `item`. A non-string truthy `Name` would make `name.toLowerCase()` on line 73 throw; that is not modelled.
- Slug.Lower: lowercases A–Z only. JavaScript's `toLowerCase` applies full Unicode case mapping, and a few non-ASCII characters lower to ASCII letters (U+212A KELVIN SIGN becomes `k`); the model does not cover these.
- Field order is the order of the record as given. JavaScript's `Object.keys` lists integer-like keys first; that reordering is not modelled.
- A record's fields have distinct keys, as in any JavaScript object.
- The fixed boilerplate of the page is modelled verbatim but proves nothing: the meta, link, style and navigation text. The navigation link on line 101 contains the characters U+201A U+00DC U+00EA, a mis-decoded arrow. They are kept as they are.
- The sitemap's four main pages (scripts/generate-sitemap.js:30-49) are written in the same layout as an item entry. The model builds them with the entry layout. The resulting text is character-for-character the literal.
- The page script's `siteBase` is `/` (line 39). The mismatch with the bundler's `base` setting is configuration outside these scripts and is not modelled.
- An all-symbol name gives the empty slug. `path.join` then drops the empty segment, so its page is written to `items/index.html`. Its canonical link and sitemap address end in `/items//`. The model reproduces both and claims no intent (Agreement.EmptySlugExample).
- Two records with the same slug write the same file, so the later page replaces the earlier one. Both stay listed in the sitemap, at the same address. The model proves this behaviour and does not correct it.

=== FILE: agreement.dfy ===
/** How the two passes fit together: the sitemap lists every record at the
    address its item page declares as canonical, the page at that address
    exists, and the two scripts may run in either order. */
module Agreement {
  import opened Wrappers
  import opened Strings
  import opened Slug
  import opened Catalog
  import opened Site
  import opened Html
  import IP = ItemPages
  import opened ItemPagesMain
  import opened ItemPagesScript
  import SM = Sitemap

  lemma RegroupAddress(origin: string, a: string, b: string, ab: string, slug: string, close: string)
    requires a + b == ab
    ensures origin + a + b + slug + close == origin + ab + slug + close
  {
  }

  /** The sitemap address of a record is the canonical address its page declares. */
  lemma ItemLocIsPageUrl(item: Item)
    ensures SM.ItemLoc(item) == IP.PageUrl(ItemSlug(item))
  {
    assert IP.SiteBase + "items/" == "/items/";
    RegroupAddress(IP.Origin, IP.SiteBase, "items/", "/items/", ItemSlug(item), "/");
  }

  /** The last element before `n` that agrees with element `i` on `f`. */
  function LastSharing<T, U(==)>(xs: seq<T>, f: T -> U, i: nat, n: nat): (j: nat)
    requires i < n <= |xs|
    ensures i <= j < n && f(xs[j]) == f(xs[i])
    ensures forall k :: j < k < n ==> f(xs[k]) != f(xs[i])
    decreases n
  {
    if f(xs[n - 1]) == f(xs[i]) then n - 1 else LastSharing(xs, f, i, n - 1)
  }

  /** Record `i`'s page file exists and declares as canonical the address the
      sitemap lists for record `i`, even when a later record with the same
      slug overwrote it. */
  lemma SitemapEntryHasPage(catalog: Catalog, stringify: IP.Stringify, i: nat)
    requires i < |catalog|
    ensures var path := IP.ItemPath(catalog[i]);
            var pages := Pages(catalog, stringify);
            && path in pages
            && Contains(pages[path], IP.CanonicalLink(SM.ItemEntries(catalog)[i].loc))
  {
    var j := LastSharing(catalog, ItemSlug, i, |catalog|);
    PagesLastWriter(catalog, stringify, j);
    ItemLocIsPageUrl(catalog[i]);
  }

  /** `SitemapEntryHasPage` for all records at once. */
  lemma ListedRecordsHavePages(catalog: Catalog, stringify: IP.Stringify)
    ensures forall i :: 0 <= i < |catalog| ==>
              (IP.ItemPath(catalog[i]) in Pages(catalog, stringify)
               && Contains(Pages(catalog, stringify)[IP.ItemPath(catalog[i])], IP.CanonicalLink(SM.ItemEntries(catalog)[i].loc)))
  {
    forall i | 0 <= i < |catalog|
      ensures IP.ItemPath(catalog[i]) in Pages(catalog, stringify)
      ensures Contains(Pages(catalog, stringify)[IP.ItemPath(catalog[i])], IP.CanonicalLink(SM.ItemEntries(catalog)[i].loc))
    {
      SitemapEntryHasPage(catalog, stringify, i);
    }
  }

  /** Every page file on disk is the page of a record the sitemap lists, and
      carries that record's listed address as its canonical link. */
  lemma SitemapCoversPages(catalog: Catalog, stringify: IP.Stringify)
    ensures forall p :: p in Pages(catalog, stringify) ==>
              exists i :: 0 <= i < |catalog| && IP.ItemPath(catalog[i]) == p
                && Contains(Pages(catalog, stringify)[p], IP.CanonicalLink(SM.ItemEntries(catalog)[i].loc))
  {
    PagesKeys(catalog, stringify);
    ListedRecordsHavePages(catalog, stringify);
    CoverByEntries(catalog, Pages(catalog, stringify));
  }

  /** The step from "every record's file is there and carries its address" to
      "every file is some record's and carries its address", for any file map
      whose paths are exactly the records' paths. */
  lemma CoverByEntries(catalog: Catalog, pages: FileSystem)
    requires forall p :: p in pages <==> IsPagePath(catalog, p)
    requires forall i :: 0 <= i < |catalog| ==>
               (IP.ItemPath(catalog[i]) in pages
                && Contains(pages[IP.ItemPath(catalog[i])], IP.CanonicalLink(SM.ItemEntries(catalog)[i].loc)))
    ensures forall p :: p in pages ==>
              exists i :: 0 <= i < |catalog| && IP.ItemPath(catalog[i]) == p
                && Contains(pages[p], IP.CanonicalLink(SM.ItemEntries(catalog)[i].loc))
  {
    forall p | p in pages
      ensures exists i :: 0 <= i < |catalog| && IP.ItemPath(catalog[i]) == p
                && Contains(pages[p], IP.CanonicalLink(SM.ItemEntries(catalog)[i].loc))
    {
      var i :| 0 <= i < |catalog| && IP.ItemPath(catalog[i]) == p;
    }
  }

  /** The sitemap lists one item address per record; the pages pass writes as
      many files exactly when no two records share a slug, and fewer otherwise. */
  lemma SitemapAndPagesCount(catalog: Catalog, stringify: IP.Stringify)
    ensures |SM.ItemEntries(catalog)| == |catalog|
    ensures |Pages(catalog, stringify)| <= |SM.ItemEntries(catalog)|
    ensures |Pages(catalog, stringify)| == |SM.ItemEntries(catalog)| <==> DistinctSlugs(catalog)
  {
    PagesCount(catalog, stringify);
  }

  /** Two records listed at the same sitemap address share one page file. */
  lemma SameLocSamePage(catalog: Catalog, i: nat, j: nat)
    requires i < |catalog| && j < |catalog|
    ensures SM.ItemEntries(catalog)[i].loc == SM.ItemEntries(catalog)[j].loc <==>
              IP.ItemPath(catalog[i]) == IP.ItemPath(catalog[j])
  {
    var a := ItemSlug(catalog[i]);
    var b := ItemSlug(catalog[j]);
    ItemLocIsPageUrl(catalog[i]);
    ItemLocIsPageUrl(catalog[j]);
    OutputPathInjective(a, b);
    AffixCancel(IP.Origin + IP.SiteBase + "items/", a, b, "/");
  }

  /** A name with no letter or digit has the empty slug: its page is written
      to `items/index.html`, while both its canonical link and its sitemap
      address end in `/items//`. */
  lemma EmptySlugExample()
    ensures var item: Item := [Field("Name", "!!!")];
            && IP.ItemPath(item) == "items/index.html"
            && SM.ItemLoc(item) == "https://www.arcdb.site" + "/items/" + "/"
            && IP.PageUrl(ItemSlug(item)) == SM.ItemLoc(item)
  {
    var item: Item := [Field("Name", "!!!")];
    SlugifySmallExamples();
    assert ResolveName(item) == "!!!";
    ItemLocIsPageUrl(item);
  }

  /** `{"Name": "Scrap Metal"}` is published at `items/scrap-metal/index.html`
      and listed as `https://www.arcdb.site/items/scrap-metal/`. */
  /** The end-to-end record: a name and one further property. */
  const ScrapMetal: Item := [Field("Name", "Scrap Metal"), Field("Rarity", "Common")]

  lemma ScrapMetalExample(stringify: IP.Stringify)
    ensures IP.ItemPath(ScrapMetal) == "items/" + "scrap-metal" + "/index.html"
    ensures SM.ItemLoc(ScrapMetal) == "https://www.arcdb.site" + "/items/" + "scrap-metal" + "/"
    ensures Contains(IP.PageHtml(ScrapMetal, stringify), IP.Heading("Scrap Metal"))
    ensures Contains(IP.PageHtml(ScrapMetal, stringify), IP.RowOpen + "Rarity" + IP.RowMid + "Common" + IP.RowClose)
    ensures IP.ParseTable(IP.TableBody(ScrapMetal))
              == Some([Field("Name", "Scrap Metal"), Field("Rarity", "Common")])
  {
    ScrapMetalAddresses();
    ScrapMetalPage(stringify);
    IP.TableRoundTrip(ScrapMetal);
  }

  lemma ScrapMetalAddresses()
    ensures IP.ItemPath(ScrapMetal) == "items/" + "scrap-metal" + "/index.html"
    ensures SM.ItemLoc(ScrapMetal) == "https://www.arcdb.site" + "/items/" + "scrap-metal" + "/"
  {
    ScrapMetalNames();
  }

  lemma ScrapMetalNames()
    ensures ResolveName(ScrapMetal) == "Scrap Metal"
    ensures ItemSlug(ScrapMetal) == "scrap-metal"
  {
    assert ScrapMetal[0].key == "Name";
    SlugifyScrapMetal();
  }

  /** None of the record's words holds a character the page escapes. */
  lemma ScrapMetalUnescaped()
    ensures EscapeHtml("Scrap Metal") == "Scrap Metal"
    ensures EscapeHtml("Rarity") == "Rarity"
    ensures EscapeHtml("Common") == "Common"
  {
    PlainScrapMetal();
    PlainRarity();
    PlainCommon();
  }

  lemma PlainScrapMetal()
    ensures EscapeHtml("Scrap Metal") == "Scrap Metal"
  {
    PlainWord("Scrap Metal");
  }

  lemma PlainRarity()
    ensures EscapeHtml("Rarity") == "Rarity"
  {
    PlainWord("Rarity");
  }

  lemma PlainCommon()
    ensures EscapeHtml("Common") == "Common"
  {
    PlainWord("Common");
  }

  lemma PlainWord(s: string)
    requires forall i :: 0 <= i < |s| ==> s[i] == ' ' || 'A' <= s[i] <= 'Z' || 'a' <= s[i] <= 'z'
    ensures EscapeHtml(s) == s
  {
    EscapeHtmlIdentityIff(s);
  }

  lemma ScrapMetalTable()
    ensures Contains(IP.TableSection(IP.TableBody(ScrapMetal)),
              IP.RowOpen + "Rarity" + IP.RowMid + "Common" + IP.RowClose)
  {
    ScrapMetalUnescaped();
    var rarity := IP.TableRow(ScrapMetal[1]);
    IP.TableBodyShape(ScrapMetal);
    IP.TableBodyShape(ScrapMetal[1..]);
    var body := IP.TableRow(ScrapMetal[0]) + "\n" + rarity;
    assert IP.TableBody(ScrapMetal) == body;
    SecondRowInSection(IP.TableRow(ScrapMetal[0]), rarity);
  }

  lemma SecondRowInSection(first: string, second: string)
    ensures Contains(IP.TableSection(first + "\n" + second), second)
  {
    var before := "<tbody>\n" + first + "\n";
    var after := "\n      </tbody>";
    assert IP.TableSection(first + "\n" + second) == before + second + after;
    ContainsMiddle(before, second, after);
  }

  lemma ScrapMetalPage(stringify: IP.Stringify)
    ensures Contains(IP.PageHtml(ScrapMetal, stringify), IP.Heading("Scrap Metal"))
    ensures Contains(IP.PageHtml(ScrapMetal, stringify), IP.RowOpen + "Rarity" + IP.RowMid + "Common" + IP.RowClose)
  {
    ScrapMetalNames();
    ScrapMetalUnescaped();
    ScrapMetalTable();
    var doc := IP.PageHtml(ScrapMetal, stringify);
    ContainsTrans(doc, IP.TableSection(IP.TableBody(ScrapMetal)),
      IP.RowOpen + "Rarity" + IP.RowMid + "Common" + IP.RowClose);
  }


  /** `sitemap.xml` is never one of the page files. */
  lemma SitemapIsNoPage(catalog: Catalog)
    ensures !IsPagePath(catalog, SM.SitemapFile)
  {
    forall i | 0 <= i < |catalog| ensures IP.ItemPath(catalog[i]) != SM.SitemapFile {
      assert StartsWith(IP.ItemPath(catalog[i]), "items/");
    }
  }

  /** The page script leaves the catalog as it found it. */
  lemma PagesKeepCatalog(fs: FileSystem, parse: Parse, stringify: IP.Stringify)
    ensures ReadCatalog(RunItemPages(fs, parse, stringify).files, parse) == ReadCatalog(fs, parse)
  {
    if ReadCatalog(fs, parse).Some? {
      var catalog := ReadCatalog(fs, parse).value;
      PagesKeys(catalog, stringify);
      NoPageIsDataFile(catalog);
      ReadCatalogAfterMerge(fs, parse, Pages(catalog, stringify));
    }
  }

  /** The sitemap script leaves the catalog as it found it. */
  lemma SitemapKeepsCatalog(fs: FileSystem, parse: Parse)
    ensures ReadCatalog(SM.RunSitemap(fs, parse).files, parse) == ReadCatalog(fs, parse)
  {
    if ReadCatalog(fs, parse).Some? {
      ReadCatalogAfterWrite(fs, parse, SM.SitemapFile, SM.SitemapXml(ReadCatalog(fs, parse).value));
    }
  }

  lemma UpdateAfterMerge(fs: FileSystem, pages: FileSystem, k: string, v: string)
    requires k !in pages
    ensures (fs + pages)[k := v] == fs[k := v] + pages
  {
  }

  /** Running the page script and then the sitemap script leaves the same
      files and exit code as running them the other way round. */
  lemma PassesCommute(fs: FileSystem, parse: Parse, stringify: IP.Stringify)
    ensures var pagesFirst := RunItemPages(fs, parse, stringify);
            var sitemapFirst := SM.RunSitemap(fs, parse);
            var a := SM.RunSitemap(pagesFirst.files, parse);
            var b := RunItemPages(sitemapFirst.files, parse, stringify);
            a == b && pagesFirst.exitCode == sitemapFirst.exitCode
  {
    PagesKeepCatalog(fs, parse, stringify);
    SitemapKeepsCatalog(fs, parse);
    match ReadCatalog(fs, parse)
    case None =>
    case Some(catalog) =>
      PagesKeys(catalog, stringify);
      SitemapIsNoPage(catalog);
      UpdateAfterMerge(fs, Pages(catalog, stringify), SM.SitemapFile, SM.SitemapXml(catalog));
  }
}

=== FILE: catalog.dfy ===
/** The catalog both passes read: a sequence of records, each an ordered
    list of string-keyed string fields, and the name resolution and slug
    derivation the two passes share. */
module Catalog {
  import opened Wrappers
  import opened Slug

  datatype Field = Field(key: string, value: string)

  predicate DistinctKeys(fields: seq<Field>) {
    forall i, j :: 0 <= i < j < |fields| ==> fields[i].key != fields[j].key
  }

  /** One record: an object's own properties in iteration order (an object never repeats a key). */
  type Item = fields: seq<Field> | DistinctKeys(fields) witness []

  type Catalog = seq<Item>

  const NameKey := "Name"
  const FallbackName := "item"

  /** Property access `item[key]`; `None` stands for `undefined`. */
  function Lookup(fields: seq<Field>, key: string): (r: Option<string>)
    ensures r.None? <==> forall i :: 0 <= i < |fields| ==> fields[i].key != key
    ensures r.Some? ==> exists i :: 0 <= i < |fields| && fields[i] == Field(key, r.value)
  {
    if fields == [] then None
    else if fields[0].key == key then Some(fields[0].value)
    else Lookup(fields[1..], key)
  }

  /** A field's own key finds that field's value: keys are distinct, so no
      earlier field can answer for it. */
  lemma {:induction false} LookupOwnKey(fields: seq<Field>, i: nat)
    requires DistinctKeys(fields) && i < |fields|
    ensures Lookup(fields, fields[i].key) == Some(fields[i].value)
  {
    if i > 0 {
      assert fields[0].key != fields[i].key;
      assert DistinctKeys(fields[1..]) by {
        forall a, b | 0 <= a < b < |fields[1..]|
          ensures fields[1..][a].key != fields[1..][b].key
        {
          assert fields[1..][a] == fields[a + 1] && fields[1..][b] == fields[b + 1];
        }
      }
      LookupOwnKey(fields[1..], i - 1);
      assert fields[1..][i - 1] == fields[i];
    }
  }

  /** `Object.keys(item)`: the record's keys in iteration order. */
  function Keys(item: Item): seq<string> {
    seq(|item|, i requires 0 <= i < |item| => item[i].key)
  }

  /** `item[k]` for one of the record's own keys. */
  function Get(item: Item, k: string): string
    requires k in Keys(item)
  {
    var i :| 0 <= i < |item| && Keys(item)[i] == k;
    assert item[i].key == k;
    Lookup(item, k).value
  }

  /** `Object.keys(item).map(k => [k, item[k]])`: each key with the value the
      property access finds for it, the view both the JSON-LD list and the
      table are built from. It is the record itself, field by field. */
  function Entries(item: Item): (es: seq<Field>)
    ensures es == item
  {
    var ks := Keys(item);
    var es := seq(|ks|, i requires 0 <= i < |ks| => Field(ks[i], Get(item, ks[i])));
    assert forall i :: 0 <= i < |item| ==> es[i] == item[i] by {
      forall i | 0 <= i < |item| ensures es[i] == item[i] {
        LookupOwnKey(item, i);
      }
    }
    es
  }

  /** `item.Name || 'item'`: a missing or empty `Name` falls back to `item`. */
  function ResolveName(item: Item): (name: string)
    ensures name != ""
    ensures Lookup(item, NameKey).Some? && Lookup(item, NameKey).value != "" ==>
              name == Lookup(item, NameKey).value
    ensures Lookup(item, NameKey).None? || Lookup(item, NameKey) == Some("") ==>
              name == FallbackName
  {
    match Lookup(item, NameKey)
    case Some(v) => if v != "" then v else FallbackName
    case None => FallbackName
  }

  /** `slugify(item.Name || 'item')`, computed identically by both passes. */
  function ItemSlug(item: Item): string {
    Slugify(ResolveName(item))
  }

  /** An item without a usable `Name` gets the slug `item`. */
  lemma NamelessItemSlug(item: Item)
    requires Lookup(item, NameKey).None? || Lookup(item, NameKey) == Some("")
    ensures ItemSlug(item) == "item"
  {
    SlugifySmallExamples();
  }
}

=== FILE: html.dfy ===
/** `escapeHtml` of the item-page generator: five ordered global
    replacements, `&` first, and the entity decoder that inverts it. */
module Html {
  import opened Strings

  /** `str.replace(/c/g, rep)` for a one-character pattern. */
  function ReplaceAll(s: string, c: char, rep: string): string {
    if s == [] then [] else (if s[0] == c then rep else [s[0]]) + ReplaceAll(s[1..], c, rep)
  }

  /** Applies the replacements one after another, each to the whole string. */
  function ReplaceInOrder(s: string, subs: seq<(char, string)>): string
    decreases |subs|
  {
    if subs == [] then s else ReplaceInOrder(ReplaceAll(s, subs[0].0, subs[0].1), subs[1..])
  }

  /** The five substitutions in the order the generator applies them. */
  const Substitutions: seq<(char, string)> :=
    [('&', "&amp;"), ('<', "&lt;"), ('>', "&gt;"), ('"', "&quot;"), ('\'', "&#39;")]

  predicate IsSpecial(c: char) {
    c == '&' || c == '<' || c == '>' || c == '"' || c == '\''
  }

  /** Characters that could open or close a tag or an attribute value. */
  predicate IsMarkupChar(c: char) {
    c == '<' || c == '>' || c == '"' || c == '\''
  }

  /** The reference escaping of a single character. */
  function EscapeChar(c: char): string {
    if c == '&' then "&amp;"
    else if c == '<' then "&lt;"
    else if c == '>' then "&gt;"
    else if c == '"' then "&quot;"
    else if c == '\'' then "&#39;"
    else [c]
  }

  /** The reference escaping: every character replaced by its own escape, independently. */
  function EscapeEach(s: string): string {
    if s == [] then [] else EscapeChar(s[0]) + EscapeEach(s[1..])
  }

  /** `escapeHtml`. Its contract says that the ordered replace-all passes
      equal escaping each character on its own: because `&` is replaced
      first, no entity introduced by a later pass is escaped again. */
  function EscapeHtml(s: string): (r: string)
    ensures r == EscapeEach(s)
  {
    OrderedReplacementsArePerChar(s);
    ReplaceInOrder(s, Substitutions)
  }

  /** Decodes the five entities `escapeHtml` produces, left to right. */
  function Unescape(s: string): string
    decreases |s|
  {
    if s == [] then []
    else if StartsWith(s, "&amp;") then "&" + Unescape(s[5..])
    else if StartsWith(s, "&lt;") then "<" + Unescape(s[4..])
    else if StartsWith(s, "&gt;") then ">" + Unescape(s[4..])
    else if StartsWith(s, "&quot;") then "\"" + Unescape(s[6..])
    else if StartsWith(s, "&#39;") then "'" + Unescape(s[5..])
    else [s[0]] + Unescape(s[1..])
  }

  predicate NoMarkup(r: string) {
    forall i :: 0 <= i < |r| ==> !IsMarkupChar(r[i])
  }

  predicate NoSpecial(s: string) {
    forall i :: 0 <= i < |s| ==> !IsSpecial(s[i])
  }

  /** One of the five entities starts at index `i` of `r`. */
  predicate EntityAt(r: string, i: nat) {
    || StartsAt(r, i, "&amp;")
    || StartsAt(r, i, "&lt;")
    || StartsAt(r, i, "&gt;")
    || StartsAt(r, i, "&quot;")
    || StartsAt(r, i, "&#39;")
  }

  /** Every `&` of `r` begins an entity. */
  predicate AmpersandsAreEntities(r: string) {
    forall i :: 0 <= i < |r| && r[i] == '&' ==> EntityAt(r, i)
  }

  // ---- the ordered passes equal the per-character escape ----

  lemma {:induction false} ReplaceAllAppend(a: string, b: string, c: char, rep: string)
    ensures ReplaceAll(a + b, c, rep) == ReplaceAll(a, c, rep) + ReplaceAll(b, c, rep)
    decreases |a|
  {
    if a == [] {
      assert a + b == b;
    } else {
      assert (a + b)[1..] == a[1..] + b;
      ReplaceAllAppend(a[1..], b, c, rep);
    }
  }

  lemma {:induction false} ReplaceInOrderAppend(a: string, b: string, subs: seq<(char, string)>)
    ensures ReplaceInOrder(a + b, subs) == ReplaceInOrder(a, subs) + ReplaceInOrder(b, subs)
    decreases |subs|
  {
    if subs != [] {
      ReplaceAllAppend(a, b, subs[0].0, subs[0].1);
      ReplaceInOrderAppend(ReplaceAll(a, subs[0].0, subs[0].1), ReplaceAll(b, subs[0].0, subs[0].1), subs[1..]);
    }
  }

  lemma {:induction false} ReplaceAllAbsent(s: string, c: char, rep: string)
    requires c !in s
    ensures ReplaceAll(s, c, rep) == s
    decreases |s|
  {
    if s != [] {
      assert s[0] != c;
      assert c !in s[1..];
      ReplaceAllAbsent(s[1..], c, rep);
      assert [s[0]] + s[1..] == s;
    }
  }

  lemma {:induction false} ReplaceInOrderAbsent(s: string, subs: seq<(char, string)>)
    requires forall k :: 0 <= k < |subs| ==> subs[k].0 !in s
    ensures ReplaceInOrder(s, subs) == s
    decreases |subs|
  {
    if subs != [] {
      ReplaceAllAbsent(s, subs[0].0, subs[0].1);
      assert forall k :: 0 <= k < |subs[1..]| ==> subs[1..][k] == subs[k + 1];
      ReplaceInOrderAbsent(s, subs[1..]);
    }
  }

  /** A pass whose character does not occur changes nothing. */
  lemma SkipPass(s: string, subs: seq<(char, string)>)
    requires subs != [] && subs[0].0 !in s
    ensures ReplaceInOrder(s, subs) == ReplaceInOrder(s, subs[1..])
  {
    ReplaceAllAbsent(s, subs[0].0, subs[0].1);
  }

  /** The pass for the character itself turns it into its entity. */
  lemma HitPass(c: char, subs: seq<(char, string)>)
    requires subs != [] && subs[0].0 == c
    ensures ReplaceInOrder([c], subs) == ReplaceInOrder(subs[0].1, subs[1..])
  {
    assert [c][1..] == [];
    assert ReplaceAll([c], c, subs[0].1) == subs[0].1 + [];
    assert subs[0].1 + [] == subs[0].1;
  }

  lemma AmpersandPasses()
    ensures ReplaceInOrder("&", Substitutions) == "&amp;"
  {
    HitPass('&', Substitutions);
    ReplaceInOrderAbsent("&amp;", Substitutions[1..]);
  }

  lemma LessThanPasses()
    ensures ReplaceInOrder("<", Substitutions) == "&lt;"
  {
    var subs := Substitutions;
    SkipPass("<", subs);
    HitPass('<', subs[1..]);
    ReplaceInOrderAbsent("&lt;", subs[2..]);
  }

  lemma GreaterThanPasses()
    ensures ReplaceInOrder(">", Substitutions) == "&gt;"
  {
    var subs := Substitutions;
    SkipPass(">", subs);
    SkipPass(">", subs[1..]);
    HitPass('>', subs[2..]);
    ReplaceInOrderAbsent("&gt;", subs[3..]);
  }

  lemma QuotePasses()
    ensures ReplaceInOrder("\"", Substitutions) == "&quot;"
  {
    var subs := Substitutions;
    SkipPass("\"", subs);
    SkipPass("\"", subs[1..]);
    SkipPass("\"", subs[2..]);
    HitPass('"', subs[3..]);
    assert subs[4..] == [('\'', "&#39;")];
    ReplaceInOrderAbsent("&quot;", subs[4..]);
  }

  lemma ApostrophePasses()
    ensures ReplaceInOrder("'", Substitutions) == "&#39;"
  {
    var subs := Substitutions;
    SkipPass("'", subs);
    SkipPass("'", subs[1..]);
    SkipPass("'", subs[2..]);
    SkipPass("'", subs[3..]);
    HitPass('\'', subs[4..]);
    assert subs[5..] == [];
  }

  /** On one character the five passes produce that character's escape. */
  lemma OrderedReplacementsOnChar(c: char)
    ensures ReplaceInOrder([c], Substitutions) == EscapeChar(c)
  {
    if c == '&' {
      AmpersandPasses();
    } else if c == '<' {
      LessThanPasses();
    } else if c == '>' {
      GreaterThanPasses();
    } else if c == '"' {
      QuotePasses();
    } else if c == '\'' {
      ApostrophePasses();
    } else {
      ReplaceInOrderAbsent([c], Substitutions);
    }
  }

  lemma {:induction false} OrderedReplacementsArePerChar(s: string)
    ensures ReplaceInOrder(s, Substitutions) == EscapeEach(s)
    decreases |s|
  {
    if s == [] {
      ReplaceInOrderAbsent(s, Substitutions);
    } else {
      assert s == [s[0]] + s[1..];
      ReplaceInOrderAppend([s[0]], s[1..], Substitutions);
      OrderedReplacementsOnChar(s[0]);
      OrderedReplacementsArePerChar(s[1..]);
    }
  }

  // ---- properties of the escaped text ----

  lemma {:induction false} EscapeEachAppend(a: string, b: string)
    ensures EscapeEach(a + b) == EscapeEach(a) + EscapeEach(b)
    decreases |a|
  {
    if a == [] {
      assert a + b == b;
    } else {
      assert (a + b)[0] == a[0];
      assert (a + b)[1..] == a[1..] + b;
      EscapeEachAppend(a[1..], b);
    }
  }

  lemma NoMarkupAppend(x: string, y: string)
    requires NoMarkup(x) && NoMarkup(y)
    ensures NoMarkup(x + y)
  {
    assert forall i :: |x| <= i < |x + y| ==> (x + y)[i] == y[i - |x|];
  }

  lemma {:induction false} EscapeEachNoMarkup(s: string)
    ensures NoMarkup(EscapeEach(s))
    decreases |s|
  {
    if s != [] {
      EscapeEachNoMarkup(s[1..]);
      NoMarkupAppend(EscapeChar(s[0]), EscapeEach(s[1..]));
    }
  }

  /** Escaped text holds no raw `<`, `>`, `"` or `'`. */
  lemma EscapeHtmlNoMarkup(s: string)
    ensures NoMarkup(EscapeHtml(s))
  {
    EscapeEachNoMarkup(s);
  }

  lemma EntitiesAppend(x: string, y: string)
    requires AmpersandsAreEntities(x) && AmpersandsAreEntities(y)
    ensures AmpersandsAreEntities(x + y)
  {
    forall i | 0 <= i < |x + y| && (x + y)[i] == '&'
      ensures EntityAt(x + y, i)
    {
      if i < |x| {
        assert x[i] == '&';
        var e :| e in ["&amp;", "&lt;", "&gt;", "&quot;", "&#39;"] && StartsAt(x, i, e);
        StartsAtLeft(x, y, i, e);
      } else {
        var j := i - |x|;
        assert y[j] == '&';
        var e :| e in ["&amp;", "&lt;", "&gt;", "&quot;", "&#39;"] && StartsAt(y, j, e);
        StartsAtRight(x, y, j, e);
      }
    }
  }

  lemma EscapeCharEntities(c: char)
    ensures AmpersandsAreEntities(EscapeChar(c))
  {
    var r := EscapeChar(c);
    if c == '&' {
      assert StartsAt(r, 0, "&amp;");
    } else if c == '<' {
      assert StartsAt(r, 0, "&lt;");
    } else if c == '>' {
      assert StartsAt(r, 0, "&gt;");
    } else if c == '"' {
      assert StartsAt(r, 0, "&quot;");
    } else if c == '\'' {
      assert StartsAt(r, 0, "&#39;");
    }
  }

  lemma {:induction false} EscapeEachEntities(s: string)
    ensures AmpersandsAreEntities(EscapeEach(s))
    decreases |s|
  {
    if s != [] {
      EscapeCharEntities(s[0]);
      EscapeEachEntities(s[1..]);
      EntitiesAppend(EscapeChar(s[0]), EscapeEach(s[1..]));
    }
  }

  /** Every `&` in escaped text begins one of the five entities, so no
      ampersand of the input survives raw. */
  lemma EscapeHtmlEntities(s: string)
    ensures AmpersandsAreEntities(EscapeHtml(s))
  {
    EscapeEachEntities(s);
  }

  lemma UnescapeAmp(t: string)
    ensures Unescape("&amp;" + t) == "&" + Unescape(t)
  {
    StartsWithAppend("&amp;", t);
  }

  lemma UnescapeLt(t: string)
    ensures Unescape("&lt;" + t) == "<" + Unescape(t)
  {
    var x := "&lt;" + t;
    StartsWithAppend("&lt;", t);
    assert !StartsWith(x, "&amp;") by { assert x[1] == 'l'; }
  }

  lemma UnescapeGt(t: string)
    ensures Unescape("&gt;" + t) == ">" + Unescape(t)
  {
    var x := "&gt;" + t;
    StartsWithAppend("&gt;", t);
    assert !StartsWith(x, "&amp;") && !StartsWith(x, "&lt;") by { assert x[1] == 'g'; }
  }

  lemma UnescapeQuot(t: string)
    ensures Unescape("&quot;" + t) == "\"" + Unescape(t)
  {
    var x := "&quot;" + t;
    StartsWithAppend("&quot;", t);
    assert !StartsWith(x, "&amp;") && !StartsWith(x, "&lt;") && !StartsWith(x, "&gt;") by {
      assert x[1] == 'q';
    }
  }

  lemma UnescapeApos(t: string)
    ensures Unescape("&#39;" + t) == "'" + Unescape(t)
  {
    var x := "&#39;" + t;
    StartsWithAppend("&#39;", t);
    assert !StartsWith(x, "&amp;") && !StartsWith(x, "&lt;") && !StartsWith(x, "&gt;")
      && !StartsWith(x, "&quot;") by {
      assert x[1] == '#';
    }
  }

  lemma UnescapePlain(c: char, t: string)
    requires c != '&'
    ensures Unescape([c] + t) == [c] + Unescape(t)
  {
    var x := [c] + t;
    assert x[0] == c;
    assert !StartsWith(x, "&amp;") && !StartsWith(x, "&lt;") && !StartsWith(x, "&gt;")
      && !StartsWith(x, "&quot;") && !StartsWith(x, "&#39;");
    assert x[1..] == t;
  }

  lemma UnescapeEscapedChar(c: char, t: string)
    ensures Unescape(EscapeChar(c) + t) == [c] + Unescape(t)
  {
    if c == '&' {
      UnescapeAmp(t);
    } else if c == '<' {
      UnescapeLt(t);
    } else if c == '>' {
      UnescapeGt(t);
    } else if c == '"' {
      UnescapeQuot(t);
    } else if c == '\'' {
      UnescapeApos(t);
    } else {
      UnescapePlain(c, t);
    }
  }

  lemma {:induction false} UnescapeEscapeEach(s: string)
    ensures Unescape(EscapeEach(s)) == s
    decreases |s|
  {
    if s != [] {
      UnescapeEscapedChar(s[0], EscapeEach(s[1..]));
      UnescapeEscapeEach(s[1..]);
    }
  }

  /** Decoding the five entities recovers the original text. */
  lemma EscapeHtmlRoundTrip(s: string)
    ensures Unescape(EscapeHtml(s)) == s
  {
    UnescapeEscapeEach(s);
  }

  /** Distinct texts escape to distinct texts. */
  lemma EscapeHtmlInjective(a: string, b: string)
    ensures EscapeHtml(a) == EscapeHtml(b) ==> a == b
  {
    EscapeHtmlRoundTrip(a);
    EscapeHtmlRoundTrip(b);
  }

  lemma {:induction false} EscapeEachLength(s: string)
    ensures |EscapeEach(s)| >= |s|
    ensures |EscapeEach(s)| == |s| ==> NoSpecial(s)
    ensures NoSpecial(s) ==> EscapeEach(s) == s
    decreases |s|
  {
    if s != [] {
      EscapeEachLength(s[1..]);
      assert forall i :: 0 < i < |s| ==> s[i] == s[1..][i - 1];
      if NoSpecial(s) {
        assert !IsSpecial(s[0]);
        assert [s[0]] + s[1..] == s;
      }
    }
  }

  /** Text is returned unchanged exactly when it has none of the five special characters. */
  lemma EscapeHtmlIdentityIff(s: string)
    ensures EscapeHtml(s) == s <==> NoSpecial(s)
  {
    EscapeEachLength(s);
  }
}

=== FILE: item_pages.dfy ===
/** One item page: the HTML document the item-page script renders for a record,
    the path it is written to, and its JSON-LD object. */
module ItemPages {
  import opened Wrappers
  import opened Strings
  import opened Slug
  import opened Html
  import opened Catalog
  import opened Site

  /** JavaScript's `JSON.stringify`, left abstract. */
  type Stringify = JsonLd -> string

  const Origin := "https://www.arcdb.site"
  const SiteBase := "/"

  datatype PropertyValue = PropertyValue(name: string, value: string)
  datatype Brand = Brand(name: string)

  /** The schema.org Product object embedded as JSON-LD. */
  datatype JsonLd = Product(
    context: string,
    name: string,
    description: string,
    identifier: string,
    brand: Brand,
    additionalProperty: seq<PropertyValue>)

  function Title(name: string): string {
    name + " - ARC Raiders Item" + " | Database & Guide"
  }

  /** The literal is written in short pieces, which keeps the proofs that see it cheap. */
  function Description(name: string): string {
    name + " in ARC Raiders:" + " complete item details" + " including rarity,"
    + " recycling value," + " sell price, crafting" + " uses, and quest/workshop"
    + " requirements. Part" + " of the ARC Raiders" + " items database."
  }

  /** The canonical and `og:url` address of an item page. */
  function PageUrl(slug: string): string {
    Origin + SiteBase + "items/" + slug + "/"
  }

  /** `path.join(outBase, slug, 'index.html')` relative to `public/`;
      `path.join` drops an empty segment, so the empty slug lands in `items/` itself. */
  function OutputPath(slug: string): (path: string)
    ensures StartsWith(path, "items/") && EndsWith(path, "/index.html")
    ensures path != DataFile
    ensures slug != [] ==> |path| == |slug| + 17 && path[6..6 + |slug|] == slug
  {
    if slug == [] then "items/index.html" else "items/" + slug + "/index.html"
  }

  function ItemPath(item: Item): string {
    OutputPath(ItemSlug(item))
  }

  function ToProperty(f: Field): PropertyValue {
    PropertyValue(f.key, f.value)
  }

  function Properties(fields: seq<Field>): seq<PropertyValue> {
    seq(|fields|, i requires 0 <= i < |fields| => ToProperty(fields[i]))
  }

  /** The JSON-LD object of lines 49-64. Its `additionalProperty` list is
      `Object.keys(item).map(k => ({name: k, value: item[k]}))`: one entry per
      field, with the field's key and value, in field order; its `identifier`
      is the slug. */
  function BuildJsonLd(item: Item): (ld: JsonLd)
    ensures ld.identifier == ItemSlug(item)
    ensures |ld.additionalProperty| == |item|
    ensures forall i :: 0 <= i < |item| ==>
              ld.additionalProperty[i].name == item[i].key && ld.additionalProperty[i].value == item[i].value
  {
    var name := ResolveName(item);
    Product("https://schema.org", name, Description(name), ItemSlug(item), Brand("ARC Raiders"),
      Properties(Entries(item)))
  }

  const RowOpen := "        <tr><th>"
  const RowMid := "</th><td>"
  const RowClose := "</td></tr>"

  function TableRow(f: Field): string {
    RowOpen + EscapeHtml(f.key) + RowMid + EscapeHtml(f.value) + RowClose
  }

  /** The rows joined by newlines, as `map(...).join('\n')` produces them. */
  function Rows(fields: seq<Field>): seq<string> {
    seq(|fields|, i requires 0 <= i < |fields| => TableRow(fields[i]))
  }

  function TableBody(fields: seq<Field>): string {
    Join(Rows(fields), "\n")
  }

  function TitleTag(title: string): string {
    "<title>" + title + "</title>"
  }

  function DescriptionMeta(description: string): string {
    "<meta name=\"description\" content=\"" + description + "\" />"
  }

  function KeywordsMeta(name: string, slug: string): string {
    "<meta name=\"keywords\" content=\"arc raiders " + name + ", arc raiders items, " + slug
    + ", arc raiders database\" />"
  }

  function CanonicalLink(url: string): string {
    "<link rel=\"canonical\" href=\"" + url + "\" />"
  }

  function OgTitleMeta(title: string): string {
    "<meta property=\"og:title\" content=\"" + title + "\" />"
  }

  function OgDescriptionMeta(description: string): string {
    "<meta property=\"og:description\" content=\"" + description + "\" />"
  }

  function OgUrlMeta(url: string): string {
    "<meta property=\"og:url\" content=\"" + url + "\" />"
  }

  function JsonLdScript(json: string): string {
    "<script type=\"application/ld+json\">" + json + "</script>"
  }

  function Crumb(name: string): string {
    "<span>" + name + "</span>"
  }

  function Heading(name: string): string {
    "<h1>" + name + " - ARC Raiders Item</h1>"
  }

  function Paragraph(description: string): string {
    "<p>" + description + "</p>"
  }

  function TableSection(table: string): string {
    "<tbody>\n" + table + "\n      </tbody>"
  }

  /** The pieces interpolated into the page template, already escaped where the template escapes them. */
  datatype PageText = PageText(
    title: string,          // escaped title
    description: string,    // escaped description
    keywordName: string,    // escaped lowercased name
    keywordSlug: string,    // escaped slug
    url: string,            // canonical address, not escaped
    name: string,           // escaped name
    json: string,           // serialized JSON-LD, not escaped
    table: string)          // the joined table rows

  function ItemText(item: Item, stringify: Stringify): PageText {
    var name := ResolveName(item);
    var slug := ItemSlug(item);
    PageText(EscapeHtml(Title(name)), EscapeHtml(Description(name)), EscapeHtml(Lower(name)),
      EscapeHtml(slug), PageUrl(slug), EscapeHtml(name), stringify(BuildJsonLd(item)), TableBody(Entries(item)))
  }

  // ---- the page template ----

  /** The tags of the template that carry an interpolated value. */
  datatype Hole =
    | TitleHole | DescriptionHole | KeywordsHole | CanonicalHole | OgTitleHole
    | OgDescriptionHole | OgUrlHole | JsonHole | CrumbHole | HeadingHole
    | ParagraphHole | TableHole

  /** A piece of the template: a verbatim stretch, or a tag with its value filled in. */
  datatype Piece = Fixed(stretch: Stretch) | Slot(hole: Hole)

  function Fill(h: Hole, t: PageText): string {
    match h
    case TitleHole => TitleTag(t.title)
    case DescriptionHole => DescriptionMeta(t.description)
    case KeywordsHole => KeywordsMeta(t.keywordName, t.keywordSlug)
    case CanonicalHole => CanonicalLink(t.url)
    case OgTitleHole => OgTitleMeta(t.title)
    case OgDescriptionHole => OgDescriptionMeta(t.description)
    case OgUrlHole => OgUrlMeta(t.url)
    case JsonHole => JsonLdScript(t.json)
    case CrumbHole => Crumb(t.name)
    case HeadingHole => Heading(t.name)
    case ParagraphHole => Paragraph(t.description)
    case TableHole => TableSection(t.table)
  }

  function Show(p: Piece, t: PageText): string {
    match p
    case Fixed(s) => Verbatim(s)
    case Slot(h) => Fill(h, t)
  }

  /** The stretches of the template that hold no interpolation. */
  datatype Stretch =
    | Doctype | Preamble | Break4 | Break2 | OgTypeLine | OgImageLine | AssetLinks
    | StyleSheet | BreadcrumbOpen | CrumbClose | TableOpen | TableClose | ItemNav | Closing

  function Verbatim(s: Stretch): string {
    match s
    case Doctype => "<!doctype html>\n"
    case Preamble =>
      "<html lang=\"en\">\n  <head>\n    <meta charset=\"utf-8\" />\n"
      + "    <meta name=\"viewport\" content=\"width=device-width,initial-scale=1\" />\n    "
    case Break4 => "\n    "
    case Break2 => "\n  "
    case OgTypeLine =>
      "\n    <meta property=\"og:type\" content=\"website\" />\n    "
    case OgImageLine =>
      "\n    <meta property=\"og:image\" content=\"https://www.arcdb.site/icon.svg\" />\n    "
    case AssetLinks =>
      "\n  <link rel=\"icon\" href=\"/icon.svg\" />\n"
      + "  <link rel=\"manifest\" href=\"/manifest.webmanifest\" />\n"
      + "  <link rel=\"stylesheet\" href=\"/dark-mode.css\" />\n"
      + "  <script defer src=\"/dark-mode.js\"></script>\n"
    case StyleSheet =>
      "    <style>body{font-family:system-ui,Arial,sans-serif;max-width:900px;margin:2rem auto;padding:0 1rem}h1{margin:0 0.5rem}table{border-collapse:collapse;width:100%;margin-top:1rem}td,th{padding:.5rem;border:1px solid #ddd;text-align:left}.breadcrumb{margin-bottom:1rem;font-size:0.9rem}.breadcrumb a{color:#0066cc;text-decoration:none}.breadcrumb a:hover{text-decoration:underline}.item-nav{margin-top:2rem;padding-top:1rem;border-top:1px solid #ddd}.item-nav a{display:inline-block;margin-right:1rem;color:#0066cc;text-decoration:none}.item-nav a:hover{text-decoration:underline}</style>\n"
    case BreadcrumbOpen =>
      "  </head>\n  <body>\n    <div class=\"breadcrumb\">\n"
      + "      <a href=\"/\">ARC Raiders Database</a> &gt; \n"
      + "      <a href=\"/\">Items</a> &gt; \n      "
    case CrumbClose => "\n    </div>\n    "
    case TableOpen => "\n    <table>\n      "
    case TableClose => "\n    </table>\n"
    case ItemNav =>
      "    <div class=\"item-nav\">\n"
      + "      <a href=\"/\">\U{201A}\U{00DC}\U{00EA} Back to ARC Raiders Items Database</a>\n"
      + "      <a href=\"/what-to-keep.html\">What to Keep Guide</a>\n"
      + "      <a href=\"/what-to-sell.html\">What to Sell Guide</a>\n"
      + "      <a href=\"/loot-guide.html\">Loot Farming Guide</a>\n"
      + "    </div>\n"
    case Closing => "  </body>\n</html>"
  }

  const PieceCount := 30

  /** Piece `k` of the page template, in document order. */
  function TemplatePiece(k: nat): Piece {
    match k
    case 0 => Fixed(Doctype)
    case 1 => Fixed(Preamble)
    case 2 => Slot(TitleHole)
    case 3 => Fixed(Break4)
    case 4 => Slot(DescriptionHole)
    case 5 => Fixed(Break4)
    case 6 => Slot(KeywordsHole)
    case 7 => Fixed(Break2)
    case 8 => Slot(CanonicalHole)
    case 9 => Fixed(OgTypeLine)
    case 10 => Slot(OgTitleHole)
    case 11 => Fixed(Break4)
    case 12 => Slot(OgDescriptionHole)
    case 13 => Fixed(Break2)
    case 14 => Slot(OgUrlHole)
    case 15 => Fixed(OgImageLine)
    case 16 => Slot(JsonHole)
    case 17 => Fixed(AssetLinks)
    case 18 => Fixed(StyleSheet)
    case 19 => Fixed(BreadcrumbOpen)
    case 20 => Slot(CrumbHole)
    case 21 => Fixed(CrumbClose)
    case 22 => Slot(HeadingHole)
    case 23 => Fixed(Break4)
    case 24 => Slot(ParagraphHole)
    case 25 => Fixed(TableOpen)
    case 26 => Slot(TableHole)
    case 27 => Fixed(TableClose)
    case 28 => Fixed(ItemNav)
    case _ => Fixed(Closing)
  }

  /** The template's pieces shown for `t`, in document order. */
  function Pieces(t: PageText): seq<string> {
    seq(PieceCount, k requires 0 <= k < PieceCount => Show(TemplatePiece(k), t))
  }

  /** The page template with every tag filled in from `t`. */
  function Document(t: PageText): string {
    Concat(Pieces(t))
  }

  /** The HTML document of one item. It carries the escaped title,
      description, keywords and name, the canonical link and `og:url` at the
      item's address, the JSON-LD block and the table of the record's fields. */
  function PageHtml(item: Item, stringify: Stringify): (doc: string)
    ensures var name := ResolveName(item);
            var url := PageUrl(ItemSlug(item));
            && Contains(doc, TitleTag(EscapeHtml(Title(name))))
            && Contains(doc, DescriptionMeta(EscapeHtml(Description(name))))
            && Contains(doc, KeywordsMeta(EscapeHtml(Lower(name)), EscapeHtml(ItemSlug(item))))
            && Contains(doc, CanonicalLink(url))
            && Contains(doc, OgTitleMeta(EscapeHtml(Title(name))))
            && Contains(doc, OgDescriptionMeta(EscapeHtml(Description(name))))
            && Contains(doc, OgUrlMeta(url))
            && Contains(doc, JsonLdScript(stringify(BuildJsonLd(item))))
            && Contains(doc, Crumb(EscapeHtml(name)))
            && Contains(doc, Heading(EscapeHtml(name)))
            && Contains(doc, Paragraph(EscapeHtml(Description(name))))
            && Contains(doc, TableSection(TableBody(item)))
  {
    var t := ItemText(item, stringify);
    TemplateContents(t);
    FilledTags(Document(t), t);
    Document(t)
  }

  // ---- the page contents ----

  /** A tag of the template occurs in the document with its value filled in. */
  lemma HoleInDocument(t: PageText, k: nat)
    requires k < PieceCount && TemplatePiece(k).Slot?
    ensures Contains(Document(t), Fill(TemplatePiece(k).hole, t))
  {
    ConcatContains(Pieces(t), k);
  }

  /** Where the template puts each hole: every hole has a slot of its own. */
  function Position(h: Hole): (k: nat)
    ensures k < PieceCount && TemplatePiece(k) == Slot(h)
  {
    match h
    case TitleHole => 2
    case DescriptionHole => 4
    case KeywordsHole => 6
    case CanonicalHole => 8
    case OgTitleHole => 10
    case OgDescriptionHole => 12
    case OgUrlHole => 14
    case JsonHole => 16
    case CrumbHole => 20
    case HeadingHole => 22
    case ParagraphHole => 24
    case TableHole => 26
  }

  /** Every tag of the template occurs in the document with its value filled in. */
  lemma TemplateContents(t: PageText)
    ensures forall h: Hole :: Contains(Document(t), Fill(h, t))
  {
    forall h: Hole ensures Contains(Document(t), Fill(h, t)) {
      HoleInDocument(t, Position(h));
    }
  }

  /** The holes spelled out as the tags they become. */
  lemma FilledTags(doc: string, t: PageText)
    requires forall h: Hole :: Contains(doc, Fill(h, t))
    ensures && Contains(doc, TitleTag(t.title))
            && Contains(doc, DescriptionMeta(t.description))
            && Contains(doc, KeywordsMeta(t.keywordName, t.keywordSlug))
            && Contains(doc, CanonicalLink(t.url))
            && Contains(doc, OgTitleMeta(t.title))
            && Contains(doc, OgDescriptionMeta(t.description))
            && Contains(doc, OgUrlMeta(t.url))
            && Contains(doc, JsonLdScript(t.json))
            && Contains(doc, Crumb(t.name))
            && Contains(doc, Heading(t.name))
            && Contains(doc, Paragraph(t.description))
            && Contains(doc, TableSection(t.table))
  {
    assert Contains(doc, Fill(TitleHole, t));
    assert Contains(doc, Fill(DescriptionHole, t));
    assert Contains(doc, Fill(KeywordsHole, t));
    assert Contains(doc, Fill(CanonicalHole, t));
    assert Contains(doc, Fill(OgTitleHole, t));
    assert Contains(doc, Fill(OgDescriptionHole, t));
    assert Contains(doc, Fill(OgUrlHole, t));
    assert Contains(doc, Fill(JsonHole, t));
    assert Contains(doc, Fill(CrumbHole, t));
    assert Contains(doc, Fill(HeadingHole, t));
    assert Contains(doc, Fill(ParagraphHole, t));
    assert Contains(doc, Fill(TableHole, t));
  }

  /** The canonical address is `https://www.arcdb.site/items/{slug}/`; the slug
      needs no escaping in the `href`, since escaping leaves it unchanged. */
  lemma PageUrlShape(name: string)
    ensures PageUrl(Slugify(name)) == "https://www.arcdb.site/items/" + Slugify(name) + "/"
    ensures EscapeHtml(Slugify(name)) == Slugify(name)
  {
    var slug := Slugify(name);
    assert NoSpecial(slug) by {
      forall i | 0 <= i < |slug|
        ensures !IsSpecial(slug[i])
      {
        assert IsSlugChar(slug[i]);
      }
    }
    EscapeHtmlIdentityIff(slug);
  }

  // ---- the attribute table reads back as the record ----

  /** Reads one `<tr>` row: the text up to the next `<` in each cell is decoded. */
  function ParseRow(s: string): (r: Option<(Field, string)>)
    ensures r.Some? ==> |r.value.1| < |s|
  {
    match ParseCell(s, RowOpen)
    case None => None
    case Some((k, b)) =>
      match ParseCell(b, RowMid)
      case None => None
      case Some((v, d)) =>
        if !StartsWith(d, RowClose) then None
        else Some((Field(Unescape(k), Unescape(v)), d[|RowClose|..]))
  }

  /** Reads one or more newline-separated rows that make up all of `s`. */
  function ParseRows(s: string): Option<seq<Field>>
    decreases |s|
  {
    match ParseRow(s)
    case None => None
    case Some((f, rest)) =>
      if rest == [] then Some([f])
      else if rest[0] != '\n' then None
      else
        match ParseRows(rest[1..])
        case None => None
        case Some(fs) => Some([f] + fs)
  }

  function ParseTable(s: string): Option<seq<Field>> {
    if s == [] then Some([]) else ParseRows(s)
  }

  lemma EscapedHasNoLt(s: string)
    ensures '<' !in EscapeHtml(s)
  {
    EscapeHtmlNoMarkup(s);
  }

  lemma ParseRowOfCells(k: string, v: string, t: string)
    requires '<' !in k && '<' !in v
    ensures ParseRow(RowOpen + (k + (RowMid + (v + (RowClose + t)))))
            == Some((Field(Unescape(k), Unescape(v)), t))
  {
    ParseCellOf(RowOpen, k, RowMid + (v + (RowClose + t)));
    ParseCellOf(RowMid, v, RowClose + t);
    StartsWithAppend(RowClose, t);
  }

  lemma ParseRowOfRow(f: Field, t: string)
    ensures ParseRow(TableRow(f) + t) == Some((f, t))
  {
    var ek := EscapeHtml(f.key);
    var ev := EscapeHtml(f.value);
    assert TableRow(f) + t == RowOpen + (ek + (RowMid + (ev + (RowClose + t))));
    EscapedHasNoLt(f.key);
    EscapedHasNoLt(f.value);
    ParseRowOfCells(ek, ev, t);
    EscapeHtmlRoundTrip(f.key);
    EscapeHtmlRoundTrip(f.value);
  }

  lemma ParseRowsLast(f: Field)
    ensures ParseRows(TableRow(f)) == Some([f])
  {
    assert TableRow(f) == TableRow(f) + [];
    ParseRowOfRow(f, []);
  }

  /** A row followed by a newline and more rows. */
  lemma ParseRowsStep(s: string, f: Field, rest: string, fs: seq<Field>)
    requires ParseRow(s) == Some((f, rest))
    requires rest != [] && rest[0] == '\n' && ParseRows(rest[1..]) == Some(fs)
    ensures ParseRows(s) == Some([f] + fs)
  {
  }

  lemma ParseRowsNext(f: Field, j: string, fs: seq<Field>)
    requires ParseRows(j) == Some(fs)
    ensures ParseRows(TableRow(f) + "\n" + j) == Some([f] + fs)
  {
    var rest := "\n" + j;
    AfterSeparator(TableRow(f), '\n', j);
    ParseRowOfRow(f, rest);
    ParseRowsStep(TableRow(f) + rest, f, rest, fs);
  }

  lemma RowsTail(fields: seq<Field>)
    requires fields != []
    ensures Rows(fields)[0] == TableRow(fields[0])
    ensures Rows(fields)[1..] == Rows(fields[1..])
  {
  }

  lemma TableBodyShape(fields: seq<Field>)
    requires fields != []
    ensures |fields| == 1 ==> TableBody(fields) == TableRow(fields[0])
    ensures |fields| > 1 ==>
              TableBody(fields) == TableRow(fields[0]) + "\n" + TableBody(fields[1..])
  {
    RowsTail(fields);
  }

  lemma ParseRowsCons(fields: seq<Field>)
    requires |fields| > 1
    requires ParseRows(TableBody(fields[1..])) == Some(fields[1..])
    ensures ParseRows(TableBody(fields)) == Some(fields)
  {
    var more := fields[1..];
    assert [fields[0]] + more == fields;
    TableBodyShape(fields);
    ParseRowsNext(fields[0], TableBody(more), more);
  }

  lemma {:induction false} ParseRowsOfJoin(fields: seq<Field>)
    requires fields != []
    ensures ParseRows(TableBody(fields)) == Some(fields)
    decreases |fields|
  {
    if |fields| == 1 {
      TableBodyShape(fields);
      ParseRowsLast(fields[0]);
      assert fields == [fields[0]];
    } else {
      ParseRowsOfJoin(fields[1..]);
      ParseRowsCons(fields);
    }
  }

  /** The table has exactly one row per field, in field order: reading the
      rows back and decoding the cells gives the record itself. */
  lemma TableRoundTrip(fields: seq<Field>)
    ensures ParseTable(TableBody(fields)) == Some(fields)
  {
    if fields != [] {
      ParseRowsOfJoin(fields);
      assert Rows(fields)[0] == TableRow(fields[0]);
      assert |RowOpen| > 0;
      assert TableBody(fields) != [] by {
        if |fields| == 1 {
          assert TableBody(fields) == TableRow(fields[0]);
        }
      }
    }
  }

  /** The JSON-LD `additionalProperty` list and the table list the same keys
      and values in the same order, and `identifier` is the slug. */
  lemma JsonLdMatchesTable(item: Item)
    ensures var ld := BuildJsonLd(item);
            var table := ParseTable(TableBody(Entries(item)));
            && ld.identifier == ItemSlug(item)
            && table == Some(item)
            && |ld.additionalProperty| == |table.value|
            && forall i :: 0 <= i < |table.value| ==>
                 ld.additionalProperty[i] == PropertyValue(table.value[i].key, table.value[i].value)
  {
    TableRoundTrip(item);
  }

}

=== FILE: item_pages_main.dfy ===
/** The item-page script's main loop: every record of the catalog is rendered
    and written to its path under `items/`, a later record overwriting an
    earlier one whose slug is the same. */
module ItemPagesMain {
  import opened Wrappers
  import opened Catalog
  import opened Site
  import opened Writes
  import opened ItemPages

  /** The writes of the loop, one per record, in catalog order. */
  function PageWrites(catalog: Catalog, stringify: Stringify): seq<Write> {
    WritesOf(catalog, ItemPath, PageHtml, stringify)
  }

  /** The files the loop writes. */
  function Pages(catalog: Catalog, stringify: Stringify): FileSystem {
    Fold(PageWrites(catalog, stringify))
  }

  /** No two records of the catalog share a slug. */
  predicate DistinctSlugs(catalog: Catalog) {
    Distinct(catalog, ItemSlug)
  }

  /** `path` is written by some record of the catalog. */
  predicate IsPagePath(catalog: Catalog, path: string) {
    PathOf(catalog, ItemPath, path)
  }

  /** Two slugs go to the same file exactly when they are equal. */
  lemma OutputPathInjective(a: string, b: string)
    ensures OutputPath(a) == OutputPath(b) <==> a == b
  {
    if OutputPath(a) == OutputPath(b) && a != [] && b != [] {
      var pa := "items/" + a + "/index.html";
      var pb := "items/" + b + "/index.html";
      assert |a| == |b|;
      forall k | 0 <= k < |a| ensures a[k] == b[k] {
        assert pa[6 + k] == a[k];
        assert pb[6 + k] == b[k];
      }
    }
  }


  /** A record without a usable `Name` is written to `items/item/index.html`;
      the run goes on. */
  lemma NamelessItemPath(item: Item)
    requires Lookup(item, NameKey).None? || Lookup(item, NameKey) == Some("")
    ensures ItemPath(item) == "items/" + "item" + "/index.html"
  {
    NamelessItemSlug(item);
  }

  /** Two records share a page file exactly when they share a slug. */
  lemma DistinctPathsIffSlugs(catalog: Catalog)
    ensures Distinct(catalog, ItemPath) <==> DistinctSlugs(catalog)
  {
    forall i, j | 0 <= i < j < |catalog|
      ensures ItemPath(catalog[i]) == ItemPath(catalog[j]) <==> ItemSlug(catalog[i]) == ItemSlug(catalog[j])
    {
      OutputPathInjective(ItemSlug(catalog[i]), ItemSlug(catalog[j]));
    }
  }

  lemma LaterPathsDiffer(catalog: Catalog, j: nat)
    requires j < |catalog|
    requires forall k :: j < k < |catalog| ==> ItemSlug(catalog[k]) != ItemSlug(catalog[j])
    ensures forall k :: j < k < |catalog| ==> ItemPath(catalog[k]) != ItemPath(catalog[j])
  {
    forall k | j < k < |catalog| ensures ItemPath(catalog[k]) != ItemPath(catalog[j]) {
      OutputPathInjective(ItemSlug(catalog[k]), ItemSlug(catalog[j]));
    }
  }

  /** The files written are exactly the records' page paths. */
  lemma PagesKeys(catalog: Catalog, stringify: Stringify)
    ensures forall p :: p in Pages(catalog, stringify) <==> IsPagePath(catalog, p)
  {
    WritesOfKeys(catalog, ItemPath, PageHtml, stringify);
  }

  /** A record that no later record shares a slug with is the one whose page is on disk. */
  lemma PagesLastWriter(catalog: Catalog, stringify: Stringify, j: nat)
    requires j < |catalog|
    requires forall k :: j < k < |catalog| ==> ItemSlug(catalog[k]) != ItemSlug(catalog[j])
    ensures var p := ItemPath(catalog[j]);
            p in Pages(catalog, stringify) && Pages(catalog, stringify)[p] == PageHtml(catalog[j], stringify)
  {
    LaterPathsDiffer(catalog, j);
    WritesOfLastWriter(catalog, ItemPath, PageHtml, stringify, j);
  }

  /** One page per record, fewer exactly when two records share a slug. */
  lemma PagesCount(catalog: Catalog, stringify: Stringify)
    ensures |Pages(catalog, stringify)| <= |catalog|
    ensures |Pages(catalog, stringify)| == |catalog| <==> DistinctSlugs(catalog)
  {
    WritesOfCount(catalog, ItemPath, PageHtml, stringify);
    DistinctPathsIffSlugs(catalog);
  }

  lemma NoPageIsDataFile(catalog: Catalog)
    ensures !IsPagePath(catalog, DataFile)
  {
  }
}

=== FILE: item_pages_script.dfy ===
/** The item-page script as a whole: read the catalog, write every page,
    report through the exit code. */
module ItemPagesScript {
  import opened Catalog
  import opened Site
  import opened Writes
  import opened ItemPages
  import opened ItemPagesMain

  /** The loop of `main`, writing each record's page in turn. */
  method GenerateItemPages(fs: FileSystem, catalog: Catalog, stringify: Stringify)
    returns (out: FileSystem)
    ensures out == fs + Pages(catalog, stringify)
  {
    out := WriteAll(fs, PageWrites(catalog, stringify));
  }

  /** `main` of the item-page script: a failed read leaves the files alone and
      sets exit code 1; otherwise the pages are added, every other file is kept
      as it was, and the catalog file is untouched. */
  function RunItemPages(fs: FileSystem, parse: Parse, stringify: Stringify): (run: Run)
    ensures run.exitCode == 0 || run.exitCode == 1
    ensures run.exitCode == 1 <==> ReadCatalog(fs, parse).None?
    ensures run.exitCode == 1 ==> run.files == fs
    ensures run.exitCode == 0 ==>
              var catalog := ReadCatalog(fs, parse).value;
              && (forall p :: p in run.files <==> p in fs || IsPagePath(catalog, p))
              && (forall p :: p in fs && !IsPagePath(catalog, p) ==> run.files[p] == fs[p])
              && DataFile in run.files && run.files[DataFile] == fs[DataFile]
  {
    match ReadCatalog(fs, parse)
    case None => Run(fs, 1)
    case Some(catalog) =>
      PagesKeys(catalog, stringify);
      NoPageIsDataFile(catalog);
      Run(fs + Pages(catalog, stringify), 0)
  }

  lemma MergeTwice(a: FileSystem, b: FileSystem)
    ensures (a + b) + b == a + b
  {
  }

  /** Running the script a second time changes nothing. */
  lemma RunItemPagesIdempotent(fs: FileSystem, parse: Parse, stringify: Stringify)
    ensures var run := RunItemPages(fs, parse, stringify);
            RunItemPages(run.files, parse, stringify) == run
  {
    var run := RunItemPages(fs, parse, stringify);
    if run.exitCode == 0 {
      var catalog := ReadCatalog(fs, parse).value;
      var pages := Pages(catalog, stringify);
      assert run.files == fs + pages;
      NoPageIsDataFile(catalog);
      PagesKeys(catalog, stringify);
      ReadCatalogAfterMerge(fs, parse, pages);
      MergeTwice(fs, pages);
    }
  }

  /** After a successful run every page file holds what the loop last wrote
      to it; with `PagesLastWriter`, that is the page of the last record with
      that slug. */
  lemma RunItemPagesContents(fs: FileSystem, parse: Parse, stringify: Stringify)
    ensures var run := RunItemPages(fs, parse, stringify);
            run.exitCode == 0 ==>
              var pages := Pages(ReadCatalog(fs, parse).value, stringify);
              forall p :: p in pages ==> p in run.files && run.files[p] == pages[p]
  {
    var run := RunItemPages(fs, parse, stringify);
    if run.exitCode == 0 {
      var pages := Pages(ReadCatalog(fs, parse).value, stringify);
      assert run == Run(fs + pages, 0);
    }
  }

  /** After a successful run the file of a record that no later record shares
      a slug with holds that record's page. */
  lemma RunItemPagesWritesPage(fs: FileSystem, parse: Parse, stringify: Stringify, j: nat)
    requires ReadCatalog(fs, parse).Some? && j < |ReadCatalog(fs, parse).value|
    requires var catalog := ReadCatalog(fs, parse).value;
             forall k :: j < k < |catalog| ==> ItemSlug(catalog[k]) != ItemSlug(catalog[j])
    ensures var catalog := ReadCatalog(fs, parse).value;
            var run := RunItemPages(fs, parse, stringify);
            var p := ItemPath(catalog[j]);
            run.exitCode == 0 && p in run.files && run.files[p] == PageHtml(catalog[j], stringify)
  {
    var catalog := ReadCatalog(fs, parse).value;
    PagesLastWriter(catalog, stringify, j);
    RunItemPagesContents(fs, parse, stringify);
  }
}

=== FILE: site.dfy ===
/** What both generator scripts share around the catalog: the `public/`
    directory as a map from relative path to contents, the read of
    `data.json`, and the outcome of a run. */
module Site {
  import opened Wrappers
  import opened Catalog

  /** The files under `public/`: relative path to contents. */
  type FileSystem = map<string, string>

  /** `JSON.parse` followed by reading the array of records; `None` when it throws. */
  type Parse = string -> Option<Catalog>

  /** The catalog both scripts read, relative to `public/`. */
  const DataFile := "data.json"

  /** The files after a run and `process.exitCode` (0 when never set). */
  datatype Run = Run(files: FileSystem, exitCode: int)

  /** The `try` block of both scripts: a missing file or a parse error yields
      no catalog; otherwise the catalog is exactly what the parser returns
      for the file's contents. */
  function ReadCatalog(fs: FileSystem, parse: Parse): (r: Option<Catalog>)
    ensures r.None? <==> DataFile !in fs || parse(fs[DataFile]).None?
    ensures r.Some? ==> DataFile in fs && parse(fs[DataFile]) == r
  {
    if DataFile !in fs then None else parse(fs[DataFile])
  }

  /** The read looks at `data.json` alone: two file maps that agree on it
      yield the same catalog. */
  lemma ReadCatalogSeesOnlyDataFile(a: FileSystem, b: FileSystem, parse: Parse)
    requires DataFile in a <==> DataFile in b
    requires DataFile in a ==> a[DataFile] == b[DataFile]
    ensures ReadCatalog(a, parse) == ReadCatalog(b, parse)
  {
  }

  /** Writing a file other than `data.json` does not change what the next run reads. */
  lemma ReadCatalogAfterWrite(fs: FileSystem, parse: Parse, p: string, v: string)
    requires p != DataFile
    ensures ReadCatalog(fs[p := v], parse) == ReadCatalog(fs, parse)
  {
    ReadCatalogSeesOnlyDataFile(fs[p := v], fs, parse);
  }

  /** Adding files that leave `data.json` out does not change what the next run reads. */
  lemma ReadCatalogAfterMerge(fs: FileSystem, parse: Parse, more: FileSystem)
    requires DataFile !in more
    ensures ReadCatalog(fs + more, parse) == ReadCatalog(fs, parse)
  {
    ReadCatalogSeesOnlyDataFile(fs + more, fs, parse);
  }
}

=== FILE: sitemap.dfy ===
/** The sitemap script: the four main pages, then one `<url>` element per
    record of the catalog, at the address its item page is published under,
    written to `sitemap.xml`; and a reader that takes the document back apart. */
module Sitemap {
  import opened Wrappers
  import opened Strings
  import opened Slug
  import opened Catalog
  import opened Site

  const SiteBase := "https://www.arcdb.site"

  /** Where the sitemap is written, relative to `public/`. */
  const SitemapFile := "sitemap.xml"

  /** One `<url>` element of the `urlset`. */
  datatype Entry = Entry(loc: string, priority: string, changefreq: string)

  /** The document: the main pages, then the item pages. */
  datatype Urlset = Urlset(main: seq<Entry>, items: seq<Entry>)

  const XmlDecl := "<?xml version=\"1.0\" encoding=\"UTF-8\"?>\n"
  const UrlsetOpen := "<urlset xmlns=\"http://www.sitemaps.org/schemas/sitemap/0.9\">\n"
  const MainComment := "  <!-- Main pages -->\n"
  const ItemsComment := "  <!-- Item pages -->\n"
  const UrlsetClose := "</urlset>\n"

  const UrlOpen := "  <url>\n    <loc>"
  const LocClose := "</loc>\n    <priority>"
  const PriorityClose := "</priority>\n    <changefreq>"
  const UrlClose := "</changefreq>\n  </url>\n"

  /** One `<url>` element with its trailing newline; the main pages and the
      item pages are laid out the same way. */
  function UrlXml(e: Entry): string {
    UrlOpen + e.loc + LocClose + e.priority + PriorityClose + e.changefreq + UrlClose
  }

  /** The elements of `es`, one after another. */
  function UrlsXml(es: seq<Entry>): string {
    Concat(UrlParts(es))
  }

  function UrlParts(es: seq<Entry>): seq<string> {
    seq(|es|, i requires 0 <= i < |es| => UrlXml(es[i]))
  }

  function UrlsetXml(u: Urlset): string {
    XmlDecl + UrlsetOpen + MainComment + UrlsXml(u.main) + ItemsComment + UrlsXml(u.items) + UrlsetClose
  }

  /** The home page first, then the three guides. */
  const MainPages: seq<Entry> := [
    Entry(SiteBase + "/", "1.00", "weekly"),
    Entry(SiteBase + "/what-to-keep.html", "0.80", "weekly"),
    Entry(SiteBase + "/what-to-sell.html", "0.80", "weekly"),
    Entry(SiteBase + "/loot-guide.html", "0.80", "weekly")
  ]

  /** `${siteBase}/items/${slug}/` for the record's slug. */
  function ItemLoc(item: Item): string {
    SiteBase + "/items/" + ItemSlug(item) + "/"
  }

  function ItemEntry(item: Item): Entry {
    Entry(ItemLoc(item), "0.60", "monthly")
  }

  /** One element per record, in catalog order; records sharing a slug are listed once each. */
  function ItemEntries(catalog: Catalog): seq<Entry> {
    seq(|catalog|, i requires 0 <= i < |catalog| => ItemEntry(catalog[i]))
  }

  function SitemapUrlset(catalog: Catalog): Urlset {
    Urlset(MainPages, ItemEntries(catalog))
  }

  /** The text the script writes for `catalog`. It opens with the XML
      declaration and the `urlset` tag, closes with `</urlset>` and a newline
      whatever the catalog, empty or not, and reads back as the four main
      pages followed by one element per record, in catalog order. */
  function SitemapXml(catalog: Catalog): (xml: string)
    ensures StartsWith(xml, XmlDecl + UrlsetOpen)
    ensures EndsWith(xml, UrlsetClose)
    ensures ParseSitemap(xml) == Some(Urlset(MainPages, ItemEntries(catalog)))
  {
    var u := SitemapUrlset(catalog);
    PrefixOfChain(XmlDecl, UrlsetOpen, MainComment, UrlsXml(u.main), ItemsComment, UrlsXml(u.items), UrlsetClose);
    EndsWithAppend(XmlDecl + UrlsetOpen + MainComment + UrlsXml(u.main) + ItemsComment + UrlsXml(u.items), UrlsetClose);
    MainPagesPlain();
    ItemEntriesPlain(catalog);
    ParseUrlsetXml(u);
    UrlsetXml(u)
  }

  // ---- the loop that builds the text ----

  lemma UrlsXmlCons(es: seq<Entry>)
    requires es != []
    ensures UrlsXml(es) == UrlXml(es[0]) + UrlsXml(es[1..])
  {
    assert UrlParts(es)[1..] == UrlParts(es[1..]);
  }

  /** The `for` loop: `sitemap +=` one element after another. */
  method AppendAll(sitemap: string, parts: seq<string>) returns (xml: string)
    ensures xml == sitemap + Concat(parts)
  {
    xml := sitemap;
    var i := 0;
    while i < |parts|
      invariant 0 <= i <= |parts|
      invariant xml == sitemap + Concat(parts[..i])
    {
      assert parts[..i + 1] == parts[..i] + [parts[i]];
      ConcatSnoc(parts[..i], parts[i]);
      xml := xml + parts[i];
      i := i + 1;
    }
    assert parts[..i] == parts;
  }

  /** `main`'s string building: the fixed opening with the main pages, the
      loop over the records, then the closing tag. */
  method BuildSitemap(catalog: Catalog) returns (xml: string)
    ensures xml == SitemapXml(catalog)
  {
    xml := XmlDecl + UrlsetOpen + MainComment + UrlsXml(MainPages) + ItemsComment;
    xml := AppendAll(xml, UrlParts(ItemEntries(catalog)));
    xml := xml + UrlsetClose;
  }

  // ---- reading the document back ----

  /** Reads one `<url>` element; each field is the text up to the next `<`. */
  function ParseUrl(s: string): (r: Option<(Entry, string)>)
    ensures r.Some? ==> |r.value.1| < |s|
  {
    match ParseCell(s, UrlOpen)
    case None => None
    case Some((loc, a)) =>
      match ParseCell(a, LocClose)
      case None => None
      case Some((priority, b)) =>
        match ParseCell(b, PriorityClose)
        case None => None
        case Some((changefreq, c)) =>
          if !StartsWith(c, UrlClose) then None
          else Some((Entry(loc, priority, changefreq), c[|UrlClose|..]))
  }

  /** Reads `<url>` elements for as long as the text opens one. */
  function ParseUrls(s: string): (r: Option<(seq<Entry>, string)>)
    ensures r.Some? ==> |r.value.1| <= |s|
    decreases |s|
  {
    if !StartsWith(s, UrlOpen) then Some(([], s))
    else
      match ParseUrl(s)
      case None => None
      case Some((e, rest)) =>
        match ParseUrls(rest)
        case None => None
        case Some((es, tail)) => Some(([e] + es, tail))
  }

  /** Reads a whole sitemap in the layout the script writes. */
  function ParseSitemap(s: string): Option<Urlset> {
    var head := XmlDecl + UrlsetOpen + MainComment;
    if !StartsWith(s, head) then None
    else
      match ParseUrls(s[|head|..])
      case None => None
      case Some((main, a)) =>
        if !StartsWith(a, ItemsComment) then None
        else
          match ParseUrls(a[|ItemsComment|..])
          case None => None
          case Some((items, b)) =>
            if b == UrlsetClose then Some(Urlset(main, items)) else None
  }

  /** No field of the element contains `<`, so each can be read back. */
  predicate Plain(e: Entry) {
    '<' !in e.loc && '<' !in e.priority && '<' !in e.changefreq
  }

  predicate AllPlain(es: seq<Entry>) {
    forall i :: 0 <= i < |es| ==> Plain(es[i])
  }

  lemma ParseUrlOf(e: Entry, t: string)
    requires Plain(e)
    ensures ParseUrl(UrlXml(e) + t) == Some((e, t))
  {
    var r3 := UrlClose + t;
    var r2 := PriorityClose + (e.changefreq + r3);
    var r1 := LocClose + (e.priority + r2);
    Regroup(UrlOpen, e.loc, LocClose, e.priority, PriorityClose, e.changefreq, UrlClose, t);
    ParseCellOf(UrlOpen, e.loc, r1);
    ParseCellOf(LocClose, e.priority, r2);
    ParseCellOf(PriorityClose, e.changefreq, r3);
    StartsWithAppend(UrlClose, t);
  }

  lemma UrlXmlOpens(e: Entry, t: string)
    ensures StartsWith(UrlXml(e) + t, UrlOpen)
  {
    Regroup(UrlOpen, e.loc, LocClose, e.priority, PriorityClose, e.changefreq, UrlClose, t);
    StartsWithAppend(UrlOpen, e.loc + (LocClose + (e.priority + (PriorityClose + (e.changefreq + (UrlClose + t))))));
  }

  lemma ParseUrlsStep(s: string, e: Entry, rest: string, es: seq<Entry>, tail: string)
    requires StartsWith(s, UrlOpen) && ParseUrl(s) == Some((e, rest))
    requires ParseUrls(rest) == Some((es, tail))
    ensures ParseUrls(s) == Some(([e] + es, tail))
  {
  }

  /** The elements read back are the ones written, and reading stops at `tail`. */
  lemma {:induction false} ParseUrlsOf(es: seq<Entry>, tail: string)
    requires AllPlain(es)
    requires !StartsWith(tail, UrlOpen)
    ensures ParseUrls(UrlsXml(es) + tail) == Some((es, tail))
    decreases |es|
  {
    if es == [] {
      assert UrlsXml(es) + tail == tail;
    } else {
      assert [es[0]] + es[1..] == es;
      var rest := UrlsXml(es[1..]) + tail;
      UrlsXmlCons(es);
      assert UrlsXml(es) + tail == UrlXml(es[0]) + rest;
      UrlXmlOpens(es[0], rest);
      ParseUrlOf(es[0], rest);
      ParseUrlsOf(es[1..], tail);
      ParseUrlsStep(UrlXml(es[0]) + rest, es[0], rest, es[1..], tail);
    }
  }

  lemma ItemsCommentIsNoUrl(t: string)
    ensures !StartsWith(ItemsComment + t, UrlOpen)
  {
    assert (ItemsComment + t)[3] == '!';
    assert UrlOpen[3] == 'u';
  }

  lemma UrlsetCloseIsNoUrl()
    ensures !StartsWith(UrlsetClose, UrlOpen)
  {
    assert UrlsetClose[0] == '<';
    assert UrlOpen[0] == ' ';
  }

  /** Any document the script's layout produces reads back as the entries it was built from. */
  lemma ParseUrlsetXml(u: Urlset)
    requires AllPlain(u.main) && AllPlain(u.items)
    ensures ParseSitemap(UrlsetXml(u)) == Some(u)
  {
    var head := XmlDecl + UrlsetOpen + MainComment;
    var second := ItemsComment + (UrlsXml(u.items) + UrlsetClose);
    var first := UrlsXml(u.main) + second;
    RegroupAfterThird(XmlDecl, UrlsetOpen, MainComment, UrlsXml(u.main), ItemsComment,
      UrlsXml(u.items), UrlsetClose);
    StartsWithAppend(head, first);
    ItemsCommentIsNoUrl(UrlsXml(u.items) + UrlsetClose);
    ParseUrlsOf(u.main, second);
    StartsWithAppend(ItemsComment, UrlsXml(u.items) + UrlsetClose);
    UrlsetCloseIsNoUrl();
    ParseUrlsOf(u.items, UrlsetClose);
  }

  lemma SiteAddressPlain(path: string)
    requires '<' !in path
    ensures '<' !in SiteBase + path
  {
    assert '<' !in SiteBase;
  }

  lemma MainPagesPlain()
    ensures AllPlain(MainPages)
  {
    SiteAddressPlain("/");
    SiteAddressPlain("/what-to-keep.html");
    SiteAddressPlain("/what-to-sell.html");
    SiteAddressPlain("/loot-guide.html");
  }

  lemma SlugEntryPlain(slug: string)
    requires IsSlug(slug)
    ensures Plain(Entry(SiteBase + "/items/" + slug + "/", "0.60", "monthly"))
  {
    assert '<' !in slug by {
      forall i | 0 <= i < |slug| ensures slug[i] != '<' {
        assert IsSlugChar(slug[i]);
      }
    }
    SiteAddressPlain("/items/");
    assert SiteBase + "/items/" + slug + "/" == (SiteBase + "/items/") + slug + "/";
  }

  /** A slug is made of `[a-z0-9-]`, so the item address holds no `<`. */
  lemma ItemEntryPlain(item: Item)
    ensures Plain(ItemEntry(item))
  {
    SlugEntryPlain(ItemSlug(item));
  }

  lemma ItemEntriesPlain(catalog: Catalog)
    ensures AllPlain(ItemEntries(catalog))
  {
    forall i | 0 <= i < |catalog| ensures Plain(ItemEntries(catalog)[i]) {
      ItemEntryPlain(catalog[i]);
    }
  }

  /** The sitemap lists 4 + N addresses for N records: the four main pages,
      then record `i` at its item address, priority `0.60`, monthly. */
  lemma SitemapEntryCount(catalog: Catalog)
    ensures var u := ParseSitemap(SitemapXml(catalog));
            && u.Some?
            && |u.value.main| == 4
            && |u.value.items| == |catalog|
            && |u.value.main| + |u.value.items| == 4 + |catalog|
            && forall i :: 0 <= i < |catalog| ==>
                 u.value.items[i] == Entry(SiteBase + "/items/" + ItemSlug(catalog[i]) + "/", "0.60", "monthly")
  {
  }

  // ---- the script as a whole ----

  /** `main` of the sitemap script: a failed read leaves the files alone and
      sets exit code 1; otherwise `sitemap.xml` is (over)written with a
      document that reads back as the main pages and one element per record,
      and every other file is kept. */
  function RunSitemap(fs: FileSystem, parse: Parse): (run: Run)
    ensures run.exitCode == 0 || run.exitCode == 1
    ensures run.exitCode == 1 <==> ReadCatalog(fs, parse).None?
    ensures run.exitCode == 1 ==> run.files == fs
    ensures run.exitCode == 0 ==>
              var catalog := ReadCatalog(fs, parse).value;
              && run.files.Keys == fs.Keys + {SitemapFile}
              && (forall p :: p in fs && p != SitemapFile ==> run.files[p] == fs[p])
              && ParseSitemap(run.files[SitemapFile]) == Some(Urlset(MainPages, ItemEntries(catalog)))
  {
    match ReadCatalog(fs, parse)
    case None => Run(fs, 1)
    case Some(catalog) =>
      Run(fs[SitemapFile := SitemapXml(catalog)], 0)
  }

  /** Running the script a second time changes nothing. */
  lemma RunSitemapIdempotent(fs: FileSystem, parse: Parse)
    ensures var run := RunSitemap(fs, parse);
            RunSitemap(run.files, parse) == run
  {
    var run := RunSitemap(fs, parse);
    if run.exitCode == 0 {
      ReadCatalogAfterWrite(fs, parse, SitemapFile, SitemapXml(ReadCatalog(fs, parse).value));
    }
  }
}

=== FILE: slug.dfy ===
/** The slug deriver shared by the item-page pass and the sitemap pass:
    lowercase the name, turn every maximal run of characters outside
    `[a-z0-9]` into one `-`, then strip leading and trailing `-`. */
module Slug {
  import opened Strings

  predicate IsAlnum(c: char) {
    'a' <= c <= 'z' || '0' <= c <= '9'
  }

  predicate IsSlugChar(c: char) {
    IsAlnum(c) || c == '-'
  }

  predicate AllAlnum(s: string) {
    forall i :: 0 <= i < |s| ==> IsAlnum(s[i])
  }

  /** The shape every slug has: only `[a-z0-9-]`, no `-` at either end, no `--`. */
  predicate IsSlug(s: string) {
    && (forall i :: 0 <= i < |s| ==> IsSlugChar(s[i]))
    && (s != [] ==> s[0] != '-' && s[|s| - 1] != '-')
    && (forall i :: 0 < i < |s| && s[i] == '-' ==> s[i - 1] != '-')
  }

  /** ASCII case mapping: `A`-`Z` become `a`-`z`, everything else is kept. */
  function LowerChar(c: char): char {
    if 'A' <= c <= 'Z' then (c as int + 32) as char else c
  }

  /** `toLowerCase` on ASCII: no capital is left, lowering again changes
      nothing, a character other than a capital is kept, and a character is a
      letter or digit afterwards exactly when it was one or was a capital. */
  function Lower(s: string): (r: string)
    ensures |r| == |s|
    ensures forall i :: 0 <= i < |r| ==> !('A' <= r[i] <= 'Z')
    ensures forall i :: 0 <= i < |r| ==> LowerChar(r[i]) == r[i]
    ensures forall i :: 0 <= i < |s| && !('A' <= s[i] <= 'Z') ==> r[i] == s[i]
    ensures forall i :: 0 <= i < |s| ==> (IsAlnum(r[i]) <==> IsAlnum(s[i]) || 'A' <= s[i] <= 'Z')
  {
    seq(|s|, i requires 0 <= i < |s| => LowerChar(s[i]))
  }

  /** Drops the leading run of characters outside `[a-z0-9]`. */
  function DropSeparators(s: string): (r: string)
    ensures |r| <= |s|
    ensures r == [] || IsAlnum(r[0])
  {
    if s == [] || IsAlnum(s[0]) then s else DropSeparators(s[1..])
  }

  /** `replace(/[^a-z0-9]+/g, '-')`: each maximal separator run becomes one `-`. */
  function CollapseRuns(s: string): string
    decreases |s|
  {
    if s == [] then []
    else if IsAlnum(s[0]) then [s[0]] + CollapseRuns(s[1..])
    else "-" + CollapseRuns(DropSeparators(s[1..]))
  }

  function TrimLeadingDashes(s: string): string {
    if s != [] && s[0] == '-' then TrimLeadingDashes(s[1..]) else s
  }

  function TrimTrailingDashes(s: string): string {
    if s != [] && s[|s| - 1] == '-' then TrimTrailingDashes(s[..|s| - 1]) else s
  }

  /** The longest prefix of `s` made of `[a-z0-9]`. */
  function TakeWord(s: string): (w: string)
    ensures |w| <= |s|
    ensures AllAlnum(w)
    ensures |w| == |s| || !IsAlnum(s[|w|])
  {
    if s == [] || !IsAlnum(s[0]) then [] else [s[0]] + TakeWord(s[1..])
  }

  /** The maximal `[a-z0-9]` runs of `s`, in order: the reference reading of a slug. */
  function Words(s: string): (ws: seq<string>)
    ensures forall i :: 0 <= i < |ws| ==> ws[i] != [] && AllAlnum(ws[i])
    decreases |s|
  {
    var t := DropSeparators(s);
    if t == [] then []
    else
      var w := TakeWord(t);
      assert w != [];
      var ws := Words(t[|w|..]);
      assert forall i :: 0 < i < |[w] + ws| ==> ([w] + ws)[i] == ws[i - 1];
      [w] + ws
  }

  /** `slugify` of both generators: lowercase, every run of characters outside
      `[a-z0-9]` becomes one dash, then leading and trailing dashes go. The
      result is a slug: made of `[a-z0-9-]`, with no dash at either end and no
      two dashes in a row; and it equals the reference definition, the
      alphanumeric words of the lowercased name joined by single dashes. */
  function Slugify(name: string): (r: string)
    ensures IsSlug(r)
    ensures r == Join(Words(Lower(name)), "-")
  {
    PipelineIsJoinedWords(Lower(name));
    JoinedWordsIsSlug(Words(Lower(name)));
    TrimTrailingDashes(TrimLeadingDashes(CollapseRuns(Lower(name))))
  }

  lemma {:induction false} CollapseKeepsWord(w: string, r: string)
    requires AllAlnum(w)
    ensures CollapseRuns(w + r) == w + CollapseRuns(r)
    decreases |w|
  {
    if w != [] {
      assert (w + r)[0] == w[0];
      assert (w + r)[1..] == w[1..] + r;
      CollapseKeepsWord(w[1..], r);
      assert [w[0]] + (w[1..] + CollapseRuns(r)) == w + CollapseRuns(r);
    } else {
      assert w + r == r;
    }
  }

  lemma CollapseSeparatorRun(s: string)
    requires s != [] && !IsAlnum(s[0])
    ensures CollapseRuns(s) == "-" + CollapseRuns(DropSeparators(s))
  {
  }

  lemma {:induction false} TrimTrailingAppend(x: string, y: string)
    requires y != [] && y[0] != '-'
    ensures TrimTrailingDashes(x + y) == x + TrimTrailingDashes(y)
    decreases |y|
  {
    var xy := x + y;
    if y[|y| - 1] == '-' {
      assert xy[|xy| - 1] == '-';
      assert xy[..|xy| - 1] == x + y[..|y| - 1];
      TrimTrailingAppend(x, y[..|y| - 1]);
    } else {
      assert xy[|xy| - 1] == y[|y| - 1];
    }
  }

  lemma JoinCons(w: string, ws: seq<string>, sep: string)
    requires ws != []
    ensures Join([w] + ws, sep) == w + sep + Join(ws, sep)
  {
    assert ([w] + ws)[1..] == ws;
  }

  lemma {:induction false} TakeWordSplits(s: string)
    ensures s == TakeWord(s) + s[|TakeWord(s)|..]
  {
    if s != [] && IsAlnum(s[0]) {
      TakeWordSplits(s[1..]);
    }
  }

  lemma WordsOfWordStart(s: string)
    requires s != [] && IsAlnum(s[0])
    ensures TakeWord(s) != []
    ensures Words(s) == [TakeWord(s)] + Words(s[|TakeWord(s)|..])
  {
  }

  lemma WordsSkipSeparators(s: string)
    ensures Words(s) == Words(DropSeparators(s))
  {
    var t := DropSeparators(s);
    assert DropSeparators(t) == t;
  }

  lemma CollapseOfWordStart(s: string)
    requires s != [] && IsAlnum(s[0])
    ensures CollapseRuns(s) != [] && CollapseRuns(s)[0] == s[0]
  {
  }

  /** On input that does not start with a separator, collapsing and then
      trimming the trailing dash gives the words joined by `-`. */
  lemma {:induction false} CollapseTrimIsJoinedWords(s: string)
    requires s == [] || IsAlnum(s[0])
    ensures TrimTrailingDashes(CollapseRuns(s)) == Join(Words(s), "-")
    decreases |s|
  {
    if s != [] {
      var w := TakeWord(s);
      var rest := s[|w|..];
      WordsOfWordStart(s);
      TakeWordSplits(s);
      CollapseKeepsWord(w, rest);
      if rest == [] {
        CollapseWordOnly(w, rest);
      } else {
        CollapseWordThenSeparator(w, rest);
      }
    }
  }

  lemma CollapseWordOnly(w: string, rest: string)
    requires w != [] && AllAlnum(w) && rest == []
    requires Words(w + rest) == [w] + Words(rest)
    requires CollapseRuns(w + rest) == w + CollapseRuns(rest)
    ensures TrimTrailingDashes(CollapseRuns(w + rest)) == Join(Words(w + rest), "-")
  {
    assert w + [] == w;
    assert Words(w + rest) == [w];
  }

  lemma TrimAfterWord(w: string)
    requires w != [] && AllAlnum(w)
    ensures TrimTrailingDashes(w) == w
    ensures TrimTrailingDashes(w + "-") == w
  {
    var x := w + "-";
    assert x[..|x| - 1] == w;
    assert w[|w| - 1] != '-';
  }

  lemma {:induction false} CollapseWordThenSeparator(w: string, rest: string)
    requires w != [] && AllAlnum(w) && rest != [] && !IsAlnum(rest[0])
    requires Words(w + rest) == [w] + Words(rest)
    requires CollapseRuns(w + rest) == w + CollapseRuns(rest)
    ensures TrimTrailingDashes(CollapseRuns(w + rest)) == Join(Words(w + rest), "-")
    decreases |w + rest|, 0
  {
    var r := DropSeparators(rest);
    WordsSkipSeparators(rest);
    CollapseSeparatorRun(rest);
    if r == [] {
      calc {
        TrimTrailingDashes(CollapseRuns(w + rest));
        TrimTrailingDashes(w + ("-" + CollapseRuns(r)));
        { assert w + ("-" + []) == w + "-"; }
        TrimTrailingDashes(w + "-");
        { TrimAfterWord(w); }
        w;
        Join([w], "-");
        { assert Words(rest) == []; }
        Join([w] + Words(rest), "-");
      }
    } else {
      CollapseOfWordStart(r);
      TrimAcrossDash(w, CollapseRuns(r));
      CollapseTrimIsJoinedWords(r);
      JoinAfterWord(w, r);
    }
  }

  lemma TrimAcrossDash(w: string, c: string)
    requires w != [] && AllAlnum(w) && c != [] && IsAlnum(c[0])
    ensures TrimTrailingDashes(w + ("-" + c)) == w + "-" + TrimTrailingDashes(c)
  {
    assert w + ("-" + c) == (w + "-") + c;
    TrimTrailingAppend(w + "-", c);
  }

  lemma JoinAfterWord(w: string, r: string)
    requires r != [] && IsAlnum(r[0])
    ensures w + "-" + Join(Words(r), "-") == Join([w] + Words(r), "-")
  {
    WordsOfWordStart(r);
    JoinCons(w, Words(r), "-");
  }

  /** The three regular-expression replacements compute the joined words. */
  lemma PipelineIsJoinedWords(s: string)
    ensures TrimTrailingDashes(TrimLeadingDashes(CollapseRuns(s))) == Join(Words(s), "-")
  {
    if s == [] || IsAlnum(s[0]) {
      if s != [] {
        CollapseOfWordStart(s);
      }
      CollapseTrimIsJoinedWords(s);
    } else {
      var r := DropSeparators(s);
      CollapseSeparatorRun(s);
      var c := CollapseRuns(r);
      assert ("-" + c)[1..] == c;
      if r != [] {
        CollapseOfWordStart(r);
      }
      assert TrimLeadingDashes("-" + c) == c;
      CollapseTrimIsJoinedWords(r);
      WordsSkipSeparators(s);
    }
  }

  lemma WordDashSlugIsSlug(w: string, j: string)
    requires w != [] && AllAlnum(w)
    requires j != [] && IsSlug(j)
    ensures IsSlug(w + "-" + j)
  {
    var x := w + "-" + j;
    assert forall i :: 0 <= i < |x| ==>
      x[i] == (if i < |w| then w[i] else if i == |w| then '-' else j[i - |w| - 1]);
    assert IsAlnum(j[0]);
  }

  lemma {:induction false} JoinedWordsIsSlug(ws: seq<string>)
    requires forall i :: 0 <= i < |ws| ==> ws[i] != [] && AllAlnum(ws[i])
    ensures IsSlug(Join(ws, "-"))
    ensures ws != [] ==> Join(ws, "-") != []
  {
    if |ws| >= 2 {
      JoinedWordsIsSlug(ws[1..]);
      WordDashSlugIsSlug(ws[0], Join(ws[1..], "-"));
    }
  }

  /** Slug characters and no `--`, ends unrestricted: what `CollapseRuns` leaves alone. */
  predicate CollapsedShape(s: string) {
    && (forall i :: 0 <= i < |s| ==> IsSlugChar(s[i]))
    && (forall i :: 0 < i < |s| && s[i] == '-' ==> s[i - 1] != '-')
  }

  lemma {:induction false} CollapseFixesCollapsed(s: string)
    requires CollapsedShape(s)
    ensures CollapseRuns(s) == s
    decreases |s|
  {
    if s != [] {
      var t := s[1..];
      assert CollapsedShape(t) by {
        forall i | 0 < i < |t| && t[i] == '-'
          ensures t[i - 1] != '-'
        {
          assert s[i + 1] == '-';
        }
      }
      CollapseFixesCollapsed(t);
      if !IsAlnum(s[0]) {
        assert t == [] || IsAlnum(t[0]) by {
          if t != [] {
            assert s[1] == t[0];
          }
        }
        assert DropSeparators(t) == t;
      }
    }
  }

  /** A string already in slug shape is its own slug. */
  lemma SlugifyFixesSlugs(s: string)
    requires IsSlug(s)
    ensures Slugify(s) == s
  {
    LowerFixesSlug(s);
    CollapseFixesCollapsed(s);
    TrimsFixSlug(s);
  }

  lemma LowerFixesSlug(s: string)
    requires IsSlug(s)
    ensures Lower(s) == s
  {
    forall i | 0 <= i < |s| ensures Lower(s)[i] == s[i] {
      assert IsSlugChar(s[i]);
    }
  }

  lemma TrimsFixSlug(s: string)
    requires IsSlug(s)
    ensures TrimTrailingDashes(TrimLeadingDashes(s)) == s
  {
  }

  /** `Slugify(s) == s` exactly when `s` has slug shape. */
  lemma SlugifyFixpointIff(s: string)
    ensures Slugify(s) == s <==> IsSlug(s)
  {
    if IsSlug(s) {
      SlugifyFixesSlugs(s);
    }
  }

  /** Slugifying a slug again changes nothing. */
  lemma SlugifyIdempotent(name: string)
    ensures Slugify(Slugify(name)) == Slugify(name)
  {
    SlugifyFixesSlugs(Slugify(name));
  }

  lemma {:induction false} DropSeparatorsEmptyIff(s: string)
    ensures DropSeparators(s) == [] <==> forall i :: 0 <= i < |s| ==> !IsAlnum(s[i])
    decreases |s|
  {
    if s != [] && !IsAlnum(s[0]) {
      DropSeparatorsEmptyIff(s[1..]);
      assert forall i :: 0 < i < |s| ==> s[i] == s[1..][i - 1];
    }
  }

  /** The slug is empty exactly when no character of the lowercased name lies in `[a-z0-9]`
      (the empty name and all-symbol names). */
  lemma SlugEmptyIff(name: string)
    ensures Slugify(name) == [] <==> forall i :: 0 <= i < |name| ==> !IsAlnum(LowerChar(name[i]))
  {
    var s := Lower(name);
    DropSeparatorsEmptyIff(s);
    JoinedWordsIsSlug(Words(s));
    if DropSeparators(s) != [] {
      assert Words(s) != [];
    }
  }

  lemma {:induction false} TakeWordAppend(w: string, x: string)
    requires AllAlnum(w)
    requires x == [] || !IsAlnum(x[0])
    ensures TakeWord(w + x) == w
    decreases |w|
  {
    if w == [] {
      assert w + x == x;
    } else {
      assert (w + x)[1..] == w[1..] + x;
      TakeWordAppend(w[1..], x);
    }
  }

  lemma {:induction false} DropSeparatorsAppend(sep: string, r: string)
    requires forall i :: 0 <= i < |sep| ==> !IsAlnum(sep[i])
    requires r == [] || IsAlnum(r[0])
    ensures DropSeparators(sep + r) == r
    decreases |sep|
  {
    if sep == [] {
      assert sep + r == r;
    } else {
      assert (sep + r)[1..] == sep[1..] + r;
      DropSeparatorsAppend(sep[1..], r);
    }
  }

  /** A word, a separator run and the rest: the word is the first of the words. */
  lemma WordsCons(w: string, sep: string, r: string)
    requires w != [] && AllAlnum(w)
    requires sep != [] && forall i :: 0 <= i < |sep| ==> !IsAlnum(sep[i])
    requires r == [] || IsAlnum(r[0])
    ensures Words(w + sep + r) == [w] + Words(r)
  {
    var s := w + sep + r;
    assert s == w + (sep + r);
    TakeWordAppend(w, sep + r);
    WordsOfWordStart(s);
    assert s[|w|..] == sep + r;
    WordsSkipSeparators(sep + r);
    DropSeparatorsAppend(sep, r);
  }

  lemma WordsSingle(w: string)
    requires w != [] && AllAlnum(w)
    ensures Words(w) == [w]
  {
    TakeWordAppend(w, []);
    assert w + [] == w;
    WordsOfWordStart(w);
  }

  lemma SlugifyFromWords(name: string, lowered: string, ws: seq<string>)
    requires Lower(name) == lowered && Words(lowered) == ws
    ensures Slugify(name) == Join(ws, "-")
  {
  }

  lemma MkIiWords()
    ensures Words("mk" + "." + "ii") == ["mk", "ii"]
  {
    WordsSingle("ii");
    WordsCons("mk", ".", "ii");
  }

  lemma PulseRifleWords()
    ensures Words("pulse" + " " + ("rifle" + " " + ("mk" + "." + "ii"))) == ["pulse", "rifle", "mk", "ii"]
  {
    var mid := "rifle" + " " + ("mk" + "." + "ii");
    RifleMkIiWords();
    WordsCons("pulse", " ", mid);
    assert ["pulse"] + ["rifle", "mk", "ii"] == ["pulse", "rifle", "mk", "ii"];
  }

  lemma RifleMkIiWords()
    ensures Words("rifle" + " " + ("mk" + "." + "ii")) == ["rifle", "mk", "ii"]
  {
    MkIiWords();
    WordsCons("rifle", " ", "mk" + "." + "ii");
    assert ["rifle"] + ["mk", "ii"] == ["rifle", "mk", "ii"];
  }

  lemma PulseRifleJoin()
    ensures Join(["pulse", "rifle", "mk", "ii"], "-") == "pulse-rifle-mk-ii"
  {
    JoinCons("mk", ["ii"], "-");
    JoinCons("rifle", ["mk", "ii"], "-");
    JoinCons("pulse", ["rifle", "mk", "ii"], "-");
  }

  lemma SlugifyPulseRifle()
    ensures Slugify("Pulse Rifle Mk.II") == "pulse-rifle-mk-ii"
  {
    PulseRifleWords();
    PulseRifleJoin();
    SlugifyFromWords("Pulse Rifle Mk.II", "pulse" + " " + ("rifle" + " " + ("mk" + "." + "ii")),
      ["pulse", "rifle", "mk", "ii"]);
  }

  lemma ScrapMetalWords()
    ensures Words("scrap" + " " + "metal") == ["scrap", "metal"]
  {
    WordsSingle("metal");
    WordsCons("scrap", " ", "metal");
  }

  lemma ScrapMetalJoin()
    ensures Join(["scrap", "metal"], "-") == "scrap-metal"
  {
    JoinCons("scrap", ["metal"], "-");
  }

  lemma SlugifyScrapMetal()
    ensures Slugify("Scrap Metal") == "scrap-metal"
  {
    ScrapMetalWords();
    ScrapMetalJoin();
    SlugifyFromWords("Scrap Metal", "scrap" + " " + "metal", ["scrap", "metal"]);
  }

  lemma SlugifySmallExamples()
    ensures Slugify("!!!") == ""
    ensures Slugify("") == ""
    ensures Slugify("item") == "item"
  {
    SlugifySymbols();
    SlugifyFixesSlugs("");
    SlugifyItem();
  }

  lemma SlugifyItem()
    ensures Slugify("item") == "item"
  {
    var s := "item";
    assert s[0] == 'i' && s[1] == 't' && s[2] == 'e' && s[3] == 'm';
    assert IsSlug(s);
    SlugifyFixesSlugs(s);
  }

  lemma SlugifySymbols()
    ensures Slugify("!!!") == ""
  {
    assert Lower("!!!") == "!!!";
    assert DropSeparators("!!!") == [];
  }
}

=== FILE: strings.dfy ===
/** Option type and the small sequence-of-characters vocabulary shared by the
    page generator and the sitemap generator models. */
module Wrappers {

  datatype Option<+T> = None | Some(value: T)
}

module Strings {
  import opened Wrappers

  /** `p` is a prefix of `s`. */
  predicate StartsWith(s: string, p: string) {
    |p| <= |s| && s[..|p|] == p
  }

  /** `q` is a suffix of `s`. */
  predicate EndsWith(s: string, q: string) {
    |q| <= |s| && s[|s| - |q|..] == q
  }

  /** `p` occurs in `s` starting at index `i`. */
  predicate StartsAt(s: string, i: nat, p: string) {
    i + |p| <= |s| && s[i..i + |p|] == p
  }

  /** `t` occurs somewhere in `s` as a contiguous substring. */
  predicate Contains(s: string, t: string) {
    exists i: nat | i <= |s| :: StartsAt(s, i, t)
  }

  /** Concatenates `parts` with `sep` between neighbours (JavaScript's `Array.prototype.join`). */
  function Join(parts: seq<string>, sep: string): string {
    if |parts| == 0 then []
    else if |parts| == 1 then parts[0]
    else parts[0] + sep + Join(parts[1..], sep)
  }

  /** Concatenates `parts` with nothing in between. */
  function Concat(parts: seq<string>): string {
    if parts == [] then [] else parts[0] + Concat(parts[1..])
  }

  lemma {:induction false} ConcatSnoc(parts: seq<string>, p: string)
    ensures Concat(parts + [p]) == Concat(parts) + p
    decreases |parts|
  {
    if parts == [] {
      assert [] + [p] == [p];
      assert Concat([p]) == p + Concat([]);
    } else {
      assert (parts + [p])[0] == parts[0];
      assert (parts + [p])[1..] == parts[1..] + [p];
      ConcatSnoc(parts[1..], p);
    }
  }

  /** The longest prefix of `s` that does not contain `c`. */
  function TakeUntil(s: string, c: char): (r: string)
    ensures StartsWith(s, r)
    ensures c !in r
    ensures |r| == |s| || s[|r|] == c
  {
    if s == [] || s[0] == c then [] else [s[0]] + TakeUntil(s[1..], c)
  }

  lemma EndsWithAppend(t: string, q: string)
    ensures EndsWith(t + q, q)
  {
    assert (t + q)[|t|..] == q;
  }

  lemma PrefixOfChain(a: string, b: string, c: string, d: string, e: string, f: string, g: string)
    ensures StartsWith(a + b + c + d + e + f + g, a + b)
  {
    assert a + b + c + d + e + f + g == (a + b) + (c + d + e + f + g);
  }

  /** A common prefix and suffix can be cancelled. */
  lemma AffixCancel(p: string, a: string, b: string, q: string)
    ensures p + a + q == p + b + q <==> a == b
  {
    if p + a + q == p + b + q {
      assert |a| == |b|;
      forall k | 0 <= k < |a| ensures a[k] == b[k] {
        assert (p + a + q)[|p| + k] == a[k];
        assert (p + b + q)[|p| + k] == b[k];
      }
    }
  }

  lemma StartsWithAppend(p: string, t: string)
    ensures StartsWith(p + t, p)
    ensures (p + t)[|p|..] == t
  {
    assert (p + t)[..|p|] == p;
  }

  lemma {:induction false} TakeUntilAppend(x: string, y: string, c: char)
    requires c !in x
    requires y != [] && y[0] == c
    ensures TakeUntil(x + y, c) == x
    decreases |x|
  {
    if x == [] {
      assert x + y == y;
    } else {
      assert (x + y)[0] == x[0];
      assert (x + y)[1..] == x[1..] + y;
      TakeUntilAppend(x[1..], y, c);
    }
  }

  lemma ContainsMiddle(a: string, t: string, b: string)
    ensures Contains(a + t + b, t)
  {
    assert (a + t + b)[|a|..|a| + |t|] == t;
    assert StartsAt(a + t + b, |a|, t);
  }

  lemma ContainsTrans(a: string, b: string, c: string)
    requires Contains(a, b) && Contains(b, c)
    ensures Contains(a, c)
  {
    var i: nat :| i <= |a| && StartsAt(a, i, b);
    var j: nat :| j <= |b| && StartsAt(b, j, c);
    assert i + |b| <= |a| && a[i..i + |b|] == b;
    assert j + |c| <= |b| && b[j..j + |c|] == c;
    forall k | 0 <= k < |c|
      ensures a[i + j + k] == c[k]
    {
      assert a[i + j + k] == a[i..i + |b|][j + k];
    }
    assert a[i + j..i + j + |c|] == c;
    assert StartsAt(a, i + j, c);
  }

  lemma {:induction false} ConcatContains(parts: seq<string>, k: nat)
    requires k < |parts|
    ensures Contains(Concat(parts), parts[k])
  {
    if k == 0 {
      ContainsMiddle([], parts[0], Concat(parts[1..]));
      assert [] + parts[0] + Concat(parts[1..]) == Concat(parts);
    } else {
      ConcatContains(parts[1..], k - 1);
      var rest := Concat(parts[1..]);
      ContainsMiddle(parts[0], rest, []);
      assert parts[0] + rest + [] == Concat(parts);
      ContainsTrans(Concat(parts), rest, parts[k]);
    }
  }

  lemma StartsAtLeft(x: string, y: string, i: nat, p: string)
    requires StartsAt(x, i, p)
    ensures StartsAt(x + y, i, p)
  {
    assert (x + y)[i..i + |p|] == x[i..i + |p|];
  }

  lemma StartsAtRight(x: string, y: string, i: nat, p: string)
    requires StartsAt(y, i, p)
    ensures StartsAt(x + y, |x| + i, p)
  {
    assert (x + y)[|x| + i..|x| + i + |p|] == y[i..i + |p|];
  }

  // ---- reading markup back ----

  /** Regroups a left-nested concatenation to the right, as the readers consume it. */
  lemma Regroup(a: string, b: string, c: string, d: string, e: string, f: string, g: string, t: string)
    ensures a + b + c + d + e + f + g + t == a + (b + (c + (d + (e + (f + (g + t))))))
  {
  }

  /** Splits a seven-part concatenation after its third part. */
  lemma RegroupAfterThird(a: string, b: string, c: string, d: string, e: string, f: string, g: string)
    ensures a + b + c + d + e + f + g == (a + b + c) + (d + (e + (f + g)))
  {
  }

  /** Splits off what follows a separator character. */
  lemma AfterSeparator(x: string, c: char, t: string)
    ensures x + [c] + t == x + ([c] + t)
    ensures ([c] + t)[0] == c && ([c] + t)[1..] == t
  {
  }

  /** Skips `tag` and reads the cell text after it, up to the next `<`. */
  function ParseCell(s: string, tag: string): (r: Option<(string, string)>)
    ensures r.Some? ==> |r.value.1| <= |s| - |tag|
  {
    if !StartsWith(s, tag) then None
    else
      var a := s[|tag|..];
      var cell := TakeUntil(a, '<');
      Some((cell, a[|cell|..]))
  }

  lemma CellThenTag(x: string, y: string)
    requires '<' !in x && y != [] && y[0] == '<'
    ensures TakeUntil(x + y, '<') == x
    ensures (x + y)[|x|..] == y
  {
    TakeUntilAppend(x, y, '<');
  }

  lemma ParseCellOf(tag: string, x: string, y: string)
    requires '<' !in x && y != [] && y[0] == '<'
    ensures ParseCell(tag + (x + y), tag) == Some((x, y))
  {
    StartsWithAppend(tag, x + y);
    assert (tag + (x + y))[|tag|..] == x + y;
    CellThenTag(x, y);
  }
}

=== FILE: writes.dfy ===
/** A loop that issues `fs.writeFile(path, contents)` once per element, in
    order, seen as a map from path to the contents written last. */
module Writes {

  datatype Write = Write(path: string, contents: string)

  /** The files a sequence of writes leaves, folded from the front: the last write wins. */
  function Fold(ws: seq<Write>): map<string, string>
    decreases |ws|
  {
    if ws == [] then map[]
    else
      var n := |ws| - 1;
      Fold(ws[..n])[ws[n].path := ws[n].contents]
  }

  /** Some write in `ws` goes to `p`. */
  predicate Written(ws: seq<Write>, p: string) {
    exists i :: 0 <= i < |ws| && ws[i].path == p
  }

  /** No two writes go to the same path. */
  predicate DistinctPaths(ws: seq<Write>) {
    forall i, j :: 0 <= i < j < |ws| ==> ws[i].path != ws[j].path
  }

  lemma WrittenSnoc(ws: seq<Write>, p: string)
    requires ws != []
    ensures Written(ws, p) <==> Written(ws[..|ws| - 1], p) || ws[|ws| - 1].path == p
  {
    var n := |ws| - 1;
    var front := ws[..n];
    if Written(ws, p) && ws[n].path != p {
      var i :| 0 <= i < |ws| && ws[i].path == p;
      assert front[i] == ws[i];
    }
    if Written(front, p) {
      var i :| 0 <= i < n && front[i].path == p;
      assert ws[i] == front[i];
    }
  }

  /** The files written are exactly the paths of the writes. */
  lemma {:induction false} FoldKeys(ws: seq<Write>)
    ensures forall p :: p in Fold(ws) <==> Written(ws, p)
    decreases |ws|
  {
    if ws != [] {
      FoldKeys(ws[..|ws| - 1]);
      forall p ensures p in Fold(ws) <==> Written(ws, p) {
        WrittenSnoc(ws, p);
      }
    }
  }

  /** A write that no later write shares a path with is the one whose contents are kept. */
  lemma {:induction false} FoldLastWriter(ws: seq<Write>, j: nat)
    requires j < |ws|
    requires forall k :: j < k < |ws| ==> ws[k].path != ws[j].path
    ensures ws[j].path in Fold(ws)
    ensures Fold(ws)[ws[j].path] == ws[j].contents
    decreases |ws|
  {
    var n := |ws| - 1;
    if j < n {
      var front := ws[..n];
      assert front[j] == ws[j];
      forall k | j < k < |front| ensures front[k].path != front[j].path {
        assert front[k] == ws[k];
      }
      FoldLastWriter(front, j);
    }
  }

  lemma DistinctPathsSnoc(ws: seq<Write>)
    requires ws != []
    ensures var n := |ws| - 1;
            DistinctPaths(ws) <==>
              DistinctPaths(ws[..n]) && forall i :: 0 <= i < n ==> ws[i].path != ws[n].path
  {
    var n := |ws| - 1;
    var front := ws[..n];
    assert forall i :: 0 <= i < n ==> front[i] == ws[i];
  }

  /** One file per write, fewer exactly when two writes share a path. */
  lemma {:induction false} FoldCount(ws: seq<Write>)
    ensures |Fold(ws)| <= |ws|
    ensures |Fold(ws)| == |ws| <==> DistinctPaths(ws)
    decreases |ws|
  {
    if ws != [] {
      var n := |ws| - 1;
      var front := ws[..n];
      var p := ws[n].path;
      FoldCount(front);
      FoldKeys(front);
      DistinctPathsSnoc(ws);
      if p in Fold(front) {
        var i :| 0 <= i < n && front[i].path == p;
        assert front[i] == ws[i];
      } else {
        assert !Written(front, p);
        forall i | 0 <= i < n ensures ws[i].path != p {
          assert front[i] == ws[i];
        }
      }
    }
  }

  /** Applying the writes to `fs` one at a time. */
  method WriteAll(fs: map<string, string>, ws: seq<Write>) returns (out: map<string, string>)
    ensures out == fs + Fold(ws)
  {
    out := fs;
    var i := 0;
    while i < |ws|
      invariant 0 <= i <= |ws|
      invariant out == fs + Fold(ws[..i])
    {
      assert ws[..i + 1][..i] == ws[..i];
      out := out[ws[i].path := ws[i].contents];
      i := i + 1;
    }
    assert ws[..|ws|] == ws;
  }

  /** The writes of a loop over `xs` that writes `render(x, ctx)` to `path(x)` for each `x`. */
  function WritesOf<T, C>(xs: seq<T>, path: T -> string, render: (T, C) -> string, ctx: C): (ws: seq<Write>)
    ensures |ws| == |xs|
    ensures forall i :: 0 <= i < |xs| ==> ws[i] == Write(path(xs[i]), render(xs[i], ctx))
    decreases |xs|
  {
    if xs == [] then []
    else
      var n := |xs| - 1;
      WritesOf(xs[..n], path, render, ctx) + [Write(path(xs[n]), render(xs[n], ctx))]
  }

  /** `p` is the path of some element of `xs`. */
  predicate PathOf<T>(xs: seq<T>, path: T -> string, p: string) {
    exists i :: 0 <= i < |xs| && path(xs[i]) == p
  }

  /** No two elements of `xs` agree on `f`. */
  predicate Distinct<T, U(==)>(xs: seq<T>, f: T -> U) {
    forall i, j :: 0 <= i < j < |xs| ==> f(xs[i]) != f(xs[j])
  }

  /** The loop's files are exactly the elements' paths. */
  lemma WritesOfKeys<T, C>(xs: seq<T>, path: T -> string, render: (T, C) -> string, ctx: C)
    ensures forall p :: p in Fold(WritesOf(xs, path, render, ctx)) <==> PathOf(xs, path, p)
  {
    var ws := WritesOf(xs, path, render, ctx);
    FoldKeys(ws);
    forall p ensures Written(ws, p) <==> PathOf(xs, path, p) {
      if Written(ws, p) {
        var i :| 0 <= i < |ws| && ws[i].path == p;
        assert path(xs[i]) == p;
      }
      if PathOf(xs, path, p) {
        var i :| 0 <= i < |xs| && path(xs[i]) == p;
        assert ws[i].path == p;
      }
    }
  }

  /** An element no later element shares a path with is the one whose rendering is kept. */
  lemma WritesOfLastWriter<T, C>(xs: seq<T>, path: T -> string, render: (T, C) -> string, ctx: C, j: nat)
    requires j < |xs|
    requires forall k :: j < k < |xs| ==> path(xs[k]) != path(xs[j])
    ensures path(xs[j]) in Fold(WritesOf(xs, path, render, ctx))
    ensures Fold(WritesOf(xs, path, render, ctx))[path(xs[j])] == render(xs[j], ctx)
  {
    var ws := WritesOf(xs, path, render, ctx);
    forall k | j < k < |ws| ensures ws[k].path != ws[j].path {
      assert ws[k].path == path(xs[k]);
    }
    FoldLastWriter(ws, j);
  }

  /** One file per element, fewer exactly when two elements share a path. */
  lemma WritesOfCount<T, C>(xs: seq<T>, path: T -> string, render: (T, C) -> string, ctx: C)
    ensures |Fold(WritesOf(xs, path, render, ctx))| <= |xs|
    ensures |Fold(WritesOf(xs, path, render, ctx))| == |xs| <==> Distinct(xs, path)
  {
    var ws := WritesOf(xs, path, render, ctx);
    FoldCount(ws);
    assert DistinctPaths(ws) <==> Distinct(xs, path) by {
      forall i, j | 0 <= i < j < |xs| ensures ws[i].path == ws[j].path <==> path(xs[i]) == path(xs[j]) {
      }
    }
  }
}
